=== FILE: README.md ===
# m3dsync core in Dafny

m3dsync finds media files that two collections do not share, and duplicate files
within one collection. It does so without comparing whole files. `mp3hash`
fingerprints a file by hashing a sample of its bytes. The sample is chosen by file
size, and an ID3v1 trailer is left out. The fingerprint, the size and the path form
one line of a database file. `comp` indexes two databases by fingerprint. It lists
the files of one that the other lacks, and writes a shell script that copies them.
It also writes a table of matched paths. `lsdup` sorts the lines of one database
and scans them once, so that lines with equal fingerprints form groups of
duplicates. It then orders the groups by size.

The model is a set of pure functions over sequences, one module per part of the
program:

- `Basics`: `unsigned` and `unsigned long long` as 32- and 64-bit wrap-around,
  `Option`/`Result`, and `std::string::find`/`rfind`, with `None` standing for
  `npos`.
- `Order`: the order of `std::string`, and one sort standing for `std::sort`.
  On strings every sort gives the same result.
- `Hex`: the lower-case hexadecimal rendering of the digest, and its inverse.
- `Sampling`: the tier choice, the read window and the fingerprint of
  `mp3hash`. SHA-512 is a function parameter `sha`.
- `Record`: the database line. This covers how it is written, the first-space and
  second-space cut, `std::stoull`, and the checks `lsdup` makes.
- `Script`: the copy script of `comp`. This covers the header, the common-prefix
  computation, the `mkdir` lines and the `cp` lines.
- `Diff`: `comp`. A database is the text of its file. The index is built exactly as
  the reading loop builds it, with `getline(…, ' ')` and `ignore(…, '\n')` over
  byte offsets. The hash multimap's iteration order is a parameter `order`, a
  permutation of the index. The entry `find` returns is a parameter `pick`.
- `Dedup`: `lsdup`. This covers reading the lines, the carried-state scan, the
  `wasted_mem` accounting, the group order and the report. The scan is proved
  against a reference: the maximal runs of equal hashes.

## Model

| member | source | states |
|---|---|---|
| Basics.Wrap32 | m3dsync.cpp:87 | an `unsigned` holds the value itself when it is in range, and the value plus 2^32 for a negative difference |
| Basics.Wrap64 | m3dsync.cpp:274 | an `unsigned long long` holds the value itself when it is in range, and the value plus 2^64 for a negative difference |
| Basics.WrapAdd64 | m3dsync.cpp:297 | adding to a wrapped accumulator gives the exact sum modulo 2^64 |
| Basics.Find | m3dsync.cpp:284-288 | `find` returns the first position at or after `from` that holds the character, or npos when no such position exists |
| Basics.RFind | m3dsync.cpp:343 | `rfind` returns the last position that holds the character, or npos when the character does not occur |
| Order.LexLeMeaning | m3dsync.cpp:393 | `a` sorts at or before `b` exactly when `a` is a prefix of `b` or the two agree up to a position where `a` has the smaller character |
| Order.Sort | m3dsync.cpp:315 | the result is ascending in string order and a permutation of the input |
| Order.SortedUnique | m3dsync.cpp:393 | two ascending permutations of the same lines are equal, so a sort that is not stable still has a determined result |
| Order.SortIgnoresInputOrder | m3dsync.cpp:315 | the sorted list depends only on the multiset of its lines |
| Order.LexBetweenSharesPrefix | m3dsync.cpp:393 | a string that sorts between two strings with a common prefix has that prefix too |
| Hex.Encode | m3dsync.cpp:142-153 | every byte gives two characters: 64 bytes give 128 characters |
| Hex.EncodeAlphabet | m3dsync.cpp:143-153 | every character comes from "0123456789abcdef" |
| Hex.EncodePositions | m3dsync.cpp:145-153 | byte i gives `hex[b/16]` at position 2i and `hex[b%16]` at position 2i+1 |
| Hex.EncodeDecode | m3dsync.cpp:142-153 | whatever decodes, encodes back to the text it came from |
| Hex.DecodeEncode | m3dsync.cpp:142-153 | every digest is read back from its text |
| Hex.EncodeInjective | m3dsync.cpp:142-153 | distinct digests never give the same text |
| Hex.DigitValueDefined | m3dsync.cpp:143 | exactly the 16 table characters have a digit value |
| Sampling.Prefix | m3dsync.cpp:104-129 | the tier tag has three characters and ends in '-' |
| Sampling.PrefixInjective | m3dsync.cpp:104-129 | distinct tiers get distinct tags |
| Sampling.FileSize | m3dsync.cpp:86-87 | `tellg` stored in an `unsigned` is the length below 2^32 and never more than the length |
| Sampling.HasTrailer | m3dsync.cpp:95-101 | a trailer is found only in a file of at least 128 bytes; for a file below 4 GiB, exactly when its last 128 bytes start with "TAG" |
| Sampling.TrailerSkip | m3dsync.cpp:95-102 | skipback is 128 exactly when the file has at least 128 bytes and its last 128 bytes start with "TAG"; otherwise it is 0 |
| Sampling.SelectPlan | m3dsync.cpp:104-135 | the tier is `0F-` below 100 KiB plus skipback, `01-` below 1 MiB plus skipback, `02-` below 100 MiB plus skipback, `03-` otherwise; the sample sizes are filesize, 100 KiB, 1 MiB and 1 MiB; `03-` adds 50 MiB to skipback; outside `0F-` the offset, sample and skipback add up to filesize; in `0F-` the offset is 0 exactly when there is no trailer |
| Sampling.TierMonotone | m3dsync.cpp:104-129 | a larger file never falls into a smaller tier |
| Sampling.WholeTierTaggedOffsetWraps | m3dsync.cpp:104-135 | a file in `0F-` with a trailer gets the read offset 2^32 - 128, past its end |
| Sampling.ReadSample | m3dsync.cpp:135-136 | the read succeeds exactly when offset plus size fits in the file, and then returns those bytes |
| Sampling.FingerprintAsWritten | m3dsync.cpp:104-154 | when the read succeeds, the fingerprint is 3 + 128 characters long |
| Sampling.AsWrittenDefined | m3dsync.cpp:95-135 | below 4 GiB, the read fills the buffer exactly when the file is not a `0F-` file ending in an ID3v1 block |
| Sampling.TaggedSmallFileUnreadable | m3dsync.cpp:95-136 | a 72-byte payload with an ID3v1 block appended gets no readable sample |
| Sampling.IntendedPlan | m3dsync.cpp:104-135 | the corrected window: the same tier as the program; in `0F-` the offset is 0 and skipback is the trailer; offset, sample and skipback always add up to filesize |
| Sampling.PlanOf | m3dsync.cpp:104-135 | the corrected window always lies inside the file |
| Sampling.Fingerprint | m3dsync.cpp:154 | the fingerprint is a tier tag followed by 128 lower-case hex digits |
| Sampling.FingerprintShape | m3dsync.cpp:142-154 | a tag followed by the rendering of any digest has the fingerprint shape |
| Sampling.IntendedAgreesWhenReadable | m3dsync.cpp:104-154 | wherever the program reads a full sample, its fingerprint equals the corrected one |
| Sampling.SmallFileWholeDigest | m3dsync.cpp:104-110 | a file below 100 KiB without a trailer is fingerprinted by the digest of all its bytes |
| Sampling.MediumFileLastBlock | m3dsync.cpp:111-116 | a file of 100 KiB up to 1 MiB without a trailer is fingerprinted by its last 100 KiB |
| Sampling.TrailerShiftsPlan | m3dsync.cpp:95-129 | in the corrected plan, a 128-byte trailer moves every threshold by 128 and leaves the tier, the offset and the sample size as they are |
| Sampling.TrailerInvariance | m3dsync.cpp:95-135 | appending an ID3v1 block to a payload leaves the corrected fingerprint unchanged |
| Sampling.DistinctTiersDistinctFingerprints | m3dsync.cpp:104-154 | files sampled under different tiers never share a fingerprint |
| Record.Sanitize | m3dsync.cpp:156-163 | the path keeps its length, holds no line break, and has a space at each former line break while every other character stays |
| Record.SanitizeIdentity | m3dsync.cpp:156-157 | a path without line breaks is written unchanged |
| Record.Decimal | m3dsync.cpp:157 | a size is written as digits with no leading zero |
| Record.DecimalValue | m3dsync.cpp:157 | the written digits denote the size |
| Record.FormatLine | m3dsync.cpp:157-162 | the line holds no line break when the fingerprint holds none |
| Record.FingerprintPlain | m3dsync.cpp:154 | a fingerprint holds neither a space nor a line break |
| Record.RecordLine | m3dsync.cpp:154-163 | the line written for a file, with the corrected fingerprint, holds no line break |
| Record.Split | m3dsync.cpp:284-292 | a line that splits is hash, space, field, space, path; the only errors are "no space" and "no second space" |
| Record.SplitNoSpace | m3dsync.cpp:284-286 | the "no space" error is raised exactly for lines without a space |
| Record.SplitFields | m3dsync.cpp:284-292 | the cut points are the first two spaces, and the text given to `stoull` starts with the size field and the second space |
| Record.SplitOfJoin | m3dsync.cpp:284-292 | a line joined from a space-free hash and field and any path splits back into exactly those parts |
| Record.Stoull | m3dsync.cpp:424 | a value is read only from text that holds a digit; StoullDecimal, StoullRejectsNonNumeric and StoullMinusOneWraps state what is read |
| Record.StoullDecimal | m3dsync.cpp:297 | `stoull` reads a written size back, whatever follows a non-digit |
| Record.StoullRejectsNonNumeric | m3dsync.cpp:424 | text that starts with anything but white space, a sign or a digit is refused |
| Record.StoullMinusOneWraps | m3dsync.cpp:424 | "-1" is accepted and reads as 2^64 - 1 |
| Record.ParseRecord | m3dsync.cpp:410-424 | an accepted line starts with its hash and a space and ends with its non-empty path; the hash holds no space |
| Record.ParseRecordOutcome | m3dsync.cpp:410-424 | the errors of the cut pass through; an empty path is refused before the size is read; a size `stoull` refuses is refused; a line is accepted exactly when it cuts, its path is non-empty and `stoull` reads its size text, and then the record holds the hash, the path and the value `stoull` reads |
| Record.TrailingSpaceEmptyPath | m3dsync.cpp:420-422 | a line that ends at its second space is refused with "empty path" |
| Record.NonNumericSizeRefused | m3dsync.cpp:419-424 | a line whose size field starts with anything but white space, a sign or a digit is refused, whatever its path |
| Record.ParseFormat | m3dsync.cpp:410-424 | a written line parses back into its fingerprint, its size and its sanitised path |
| Record.ParseRecordLine | m3dsync.cpp:154-163 | the database line of any file, with the corrected fingerprint, parses back into its fingerprint, its 32-bit size and its sanitised path |
| Record.KeyOf | m3dsync.cpp:215 | the key is a space-free prefix of the line, followed by a space unless it is the whole line |
| Record.KeyOfSplit | m3dsync.cpp:215 | the key of a line that splits is its hash |
| Script.ShrinkPrefixCommon | m3dsync.cpp:325-335 | the length the prefix loop leaves is one where the prefix agrees with every non-empty path |
| Script.FirstMismatch | m3dsync.cpp:332-334 | the prefix and the path agree below the result and differ at it, unless the result is `ppos` |
| Script.CommonPrefixPos | m3dsync.cpp:322-337 | `ppos` is always 0, because `common_prefix` is never assigned a path |
| Script.DirPart | m3dsync.cpp:343-344 | the directory is a prefix of the path from `ppos`; when it is shorter, a '/' follows it and no '/' comes later; when it is the whole rest, no '/' occurs after `ppos`; a '/' at `ppos` itself does not cut, so the directory is never empty unless it is the whole rest |
| Script.Dirs | m3dsync.cpp:341-344 | there is one directory per path, in order |
| Script.MkdirLinesBound | m3dsync.cpp:339-350 | the `mkdir` loop (MkdirLines) writes at most one line per path, whatever directory it carries in; MkdirLinesByPosition states which |
| Script.MkdirLinesByPosition | m3dsync.cpp:339-350 | the loop that carries `last_dir` writes a `mkdir` line for exactly those paths whose directory differs from the previous path's directory (for the first path, from "#") |
| Script.MkdirCoversDirs | m3dsync.cpp:339-350 | every directory other than "#" gets a `mkdir` line |
| Script.MkdirAtBound | m3dsync.cpp:339-350 | there is at most one `mkdir` line per path |
| Script.MkdirAdjacentDistinct | m3dsync.cpp:339-350 | no two consecutive `mkdir` lines are equal |
| Script.MkdirCmdInjective | m3dsync.cpp:348 | distinct directories give distinct `mkdir` lines |
| Script.SentinelDirNotCreated | m3dsync.cpp:340-349 | a directory spelled "#" as the first directory gets no `mkdir` line |
| Script.EscapeBackticks | m3dsync.cpp:356 | escaping never shortens the path, and a non-empty escaped path never starts with a backtick |
| Script.UnescapeEscape | m3dsync.cpp:356 | the escaping can be undone, so distinct paths stay distinct in the script |
| Script.EscapedBackticksGuarded | m3dsync.cpp:356 | every backtick in the escaped path has a backslash before it |
| Script.CpCmd | m3dsync.cpp:354-356 | a `cp` line quotes the escaped path as its source and `$dest/` followed by the path from `ppos` on, not escaped, as its destination |
| Script.CpLines | m3dsync.cpp:352-357 | there is exactly one `cp` line per path, in list order |
| Script.CopyScript | m3dsync.cpp:245-357 | the script is the six header lines, then one `mkdir` line for each path whose directory differs from the previous one (from "#" for the first), then one `cp` line per path |
| Diff.IndexAtEntries | m3dsync.cpp:211-220 | every entry the reading loop (IndexAt) reads from an offset on lies at or after it, inside the text, with a non-empty key that is the text before the first space at its offset |
| Diff.Index | m3dsync.cpp:211-220 | every entry points into the text, has a non-empty key, and its key is the text before the first space from its offset |
| Diff.NextRead | m3dsync.cpp:215-216 | every turn of the reading loop advances, and never past the end |
| Diff.LineAt | m3dsync.cpp:279-280 | the re-read line is the text from the offset up to the next line end, and holds no line end |
| Diff.PartnerText | m3dsync.cpp:303 | the partner is the path of a line that splits, or the whole line when it has fewer than two spaces; there is no partner when that text would be empty |
| Diff.Walk | m3dsync.cpp:277-310 | there is one outcome per entry, in iteration order |
| Diff.Classify | m3dsync.cpp:279-309 | an entry is malformed exactly when its re-read line does not cut; missing exactly when it cuts and its key is absent from the other side; otherwise matched; a missing or matched entry carries its line's path; a missing entry carries the size `stoull` reads from the line, and a matched entry the partner text of the line `find` returns |
| Diff.MemSum | m3dsync.cpp:274-297 | outcomes that are not missing add nothing to `mem_sum`; MemSumWrapsTotal gives the total |
| Diff.MatchPiece | m3dsync.cpp:299-304 | a matched entry writes its path, a tab, the partner and a line end, or only its path and a tab when the partner text is empty; any other entry writes nothing |
| Diff.MatchTextEmpty | m3dsync.cpp:277-310 | the match file (MatchText) is empty exactly when no entry is matched |
| Diff.MatchTextOne | m3dsync.cpp:303 | the match text of one entry is its piece |
| Diff.MatchTextAppend | m3dsync.cpp:277-310 | the match text of two stretches of the walk is the first's followed by the second's, so the file is the entries' pieces in walk order |
| Diff.CompareSide | m3dsync.cpp:271-357 | the exclusion list is sorted, holds exactly the missing paths, and the script is built from it; the match file is the match text of the outcomes in walk order |
| Diff.Compare | m3dsync.cpp:271-358 | each direction's exclusion list is sorted and holds the paths missing from the other side, each direction using the other database's `find` |
| Diff.CompareSwap | m3dsync.cpp:271-358 | swapping the databases swaps the two reports |
| Diff.SizeTotalWraps | m3dsync.cpp:274-297 | `mem_sum` is the exact total of the missing sizes modulo 2^64 |
| Diff.MemSumWrapsTotal | m3dsync.cpp:297 | summing into `unsigned long long` gives the exact total modulo 2^64 |
| Diff.ClassifyMissingIff | m3dsync.cpp:284-298 | an entry is missing exactly when its line splits and its key is absent from the other index; it is listed with its line's path |
| Diff.ClassifyMatchedPartner | m3dsync.cpp:299-304 | a matched entry's line splits, its key is in the other index, and its partner text comes from a line of the other database filed under the same key |
| Diff.ClassifyMissingIgnoresPick | m3dsync.cpp:293-298 | which entries are missing does not depend on the entry `find` returns |
| Diff.MissingPathsMember | m3dsync.cpp:296 | a path is in `missing_files` exactly when some outcome is missing with that path |
| Diff.MissingIgnoresOrder | m3dsync.cpp:277-310 | the missing paths, as a multiset, and their total size do not depend on the iteration order |
| Diff.ExclusionListDeterministic | m3dsync.cpp:277-315 | the sorted exclusion list and `mem_sum` are the same for every iteration order and every choice `find` makes |
| Diff.ExclusionListMembers | m3dsync.cpp:277-319 | a path is excluded exactly when an indexed line of this database splits, has that path, and has a key absent from the other index |
| Diff.SelfCompareExcludesNothing | m3dsync.cpp:271-315 | a database compared with itself excludes nothing and reports size 0 |
| Diff.SelfCompareMatchesAll | m3dsync.cpp:293-304 | in a well-formed database compared with itself, every entry is matched to the path of a line with the same key |
| Diff.IndexOfLines | m3dsync.cpp:211-220 | when every line holds a space and no line end, the index has one entry per line, at the line's offset and keyed by its hash |
| Diff.SpacelessLineHidesNext | m3dsync.cpp:214-216 | a line without a space hides the line after it: the key runs on into that line, and the rest of that line is skipped |
| Dedup.Scan | m3dsync.cpp:404-447 | the scan's state stays consistent; ScanIsFoldOfParsed and ScanFollowsRuns give its groups and `wasted_mem` |
| Dedup.UpdateWith | m3dsync.cpp:426-440 | the state stays consistent: whenever the previous record extended a group, a group exists |
| Dedup.Step | m3dsync.cpp:408-446 | a refused line leaves the whole state unchanged; an accepted line becomes the new `last_hash`, `last_path` and `last_mem` |
| Dedup.ScanIsFoldOfParsed | m3dsync.cpp:406-446 | skipping refused lines during the scan is the same as dropping them beforehand |
| Dedup.RunsFlatten | m3dsync.cpp:393 | the runs hold every record once, in order |
| Dedup.RunsAreMaximal | m3dsync.cpp:406-440 | each run has one hash, and neighbouring runs have different hashes |
| Dedup.FoldTracksRuns | m3dsync.cpp:404-440 | after any prefix of the records: the previous record is the last one; `last_were_equal` says that the last run has two or more records; the groups are the runs with two or more records; `wasted_mem` is their waste modulo 2^64 |
| Dedup.ScanFollowsRuns | m3dsync.cpp:404-447 | the scan's groups are those of the runs of the accepted records, the sentinel in front, and `wasted_mem` adds up the members after the second of each run |
| Dedup.RefGroupsMembers | m3dsync.cpp:426-435 | the groups are exactly the runs with two or more records |
| Dedup.ScanGroupsAreRuns | m3dsync.cpp:426-435 | every group holds the paths of two or more records with one hash, and the wrapped sum of their sizes |
| Dedup.RunWasteMeaning | m3dsync.cpp:426-435 | as written, a group's waste is its total minus its first two members; corrected, it is its total minus one member |
| Dedup.SentinelInert | m3dsync.cpp:403-427 | unless the first accepted line has the hash "#", the sentinel does not affect the groups or `wasted_mem` |
| Dedup.SentinelJoinsGroup | m3dsync.cpp:403-435 | a first record with hash "#" opens a group that contains the sentinel path "#" |
| Dedup.ParsedAt | m3dsync.cpp:406-424 | each accepted record comes from a line, in ascending line order |
| Dedup.SortedLinesContiguous | m3dsync.cpp:393 | in sorted lines, the accepted records of one hash are contiguous |
| Dedup.ContiguousRunsDistinct | m3dsync.cpp:393-440 | for contiguous records, no two runs share a hash |
| Dedup.SortedLinesOneRunPerHash | m3dsync.cpp:393-440 | in sorted lines, every hash forms exactly one run of the accepted records |
| Dedup.ThreeRecordsAsWritten | m3dsync.cpp:426-435 | records (H1,100,/a), (H1,200,/b), (H2,50,/c) give the one group {300, [/a, /b]} and `wasted_mem` 0 |
| Dedup.ThreeRecordsCorrected | m3dsync.cpp:426-435 | with the corrected accounting, the same records give the same group and `wasted_mem` 100 |
| Dedup.ReadLines | m3dsync.cpp:385-391 | the `getline` loop gives at least one line, and no line holds a line break |
| Dedup.JoinReadLines | m3dsync.cpp:385-391 | the lines joined with line breaks give back the text |
| Dedup.ReadJoinLines | m3dsync.cpp:385-391 | lines without line breaks are read back as they were joined |
| Dedup.SortedLines | m3dsync.cpp:385-393 | the lines are ascending and are a permutation of the lines read |
| Dedup.ReportLinesFrame | m3dsync.cpp:452-459 | the report (ReportLines) is empty exactly when there are no groups, and otherwise opens with a "# " header and ends with an empty line; ReadReportLines reads it back as one block per group |
| Dedup.InsertGroup | m3dsync.cpp:450 | inserting a group keeps the sums non-increasing and adds exactly that group |
| Dedup.SortGroups | m3dsync.cpp:450 | the groups come by non-increasing `mem_sum`, as a permutation of the scan's groups |
| Dedup.ReadReportLines | m3dsync.cpp:452-459 | the report reads back as one block per group, in order, with the formatted sum and the paths |
| Dedup.FoldPathsNonEmpty | m3dsync.cpp:420-440 | no group holds an empty path |
| Dedup.LsdupWith | m3dsync.cpp:385-459 | under either accounting, the groups are those of the runs of the sorted lines, by non-increasing sum; `wasted_mem` is the runs' waste modulo 2^64; the report reads back as the groups |
| Dedup.Lsdup | m3dsync.cpp:385-459 | `lsdup` reports the scan's groups of the sorted lines, by non-increasing sum, with the scan's `wasted_mem`, and the report reads back as those groups |
| Dedup.LsdupGroupsAreHashes | m3dsync.cpp:385-450 | the reported groups are exactly the hashes that two or more accepted lines share, each once, with all its paths; every accepted record is in exactly one run |

## Left out

- The directory walk (`find_files_in_dir.hpp`, `scan`) and the `hash` command: they are file-system I/O, and find_files_in_dir.hpp is not part of this model.
- SHA-512 (CryptoPP) is the parameter `sha`, which maps bytes to 64 bytes; nothing is assumed about it.
- Opening, seeking and reading files; the `tellg` size check that only prints; `chmod`; the timing; the messages on `cerr` and `cout`; output file naming; `help` and `main`. These are I/O or command-line handling.
- `LW::bytes2str` is the parameter `format` of the report. `string_replace` is given directly as the backtick escape.
- Sampling.FingerprintAsWritten: where the program hashes a buffer the read did not fill, the model returns `None`, because the bytes hashed are not determined. Below 4 GiB that is exactly a `0F-` file that ends in an ID3v1 block (Sampling.AsWrittenDefined).
- Dedup.SortGroups: `std::sort` leaves the order of groups with equal sums open; the model returns one of those orders, and its contract states only non-increasing order and a permutation.
- A match line whose partner text is empty is modelled as the path and the tab, written before `at` throws. This takes the operands of `<<` to be evaluated left to right, as C++17 requires; under earlier standards the order is unspecified, and the line may be left out entirely.
- Diff.CompareSide: `indexed` (`ummap[f].size()`) only appears in a printed message.
- A read failure while re-reading a line in `comp` only prints a message. The model re-reads from the text itself.
- Record.RecordLine: the line is built from the corrected fingerprint, so for a file in the `0F-` tier that ends in an ID3v1 block it is not the line `mp3hash` writes; that line holds the digest of a buffer the read did not fill (see Findings).
- A `char` stands for one byte of a file's text or a path, with no encoding; `std::string` compares bytes as `unsigned char`, and the order of `char` here is that order.
- Files of 4 GiB or more: the size is modelled as truncated to 32 bits. The agreement lemma Sampling.IntendedAgreesWhenReadable is stated only for files below 2^32 bytes.

## Where the code and its description differ

The model follows the code in each of these cases.

- A line with one space (a key but no second field) IS indexed by `comp` (m3dsync.cpp:215-219). It is only skipped when it is classified. It can therefore be the `find` result for a key, and its whole text is then printed as the partner (Diff.PartnerText).
- A line without a space makes `getline(…, ' ')` run on into the next line, so that the next line is hidden from the index (Diff.SpacelessLineHidesNext).
- `ppos` is always 0, so every destination is `"$dest/"` followed by the full path, with a doubled slash for absolute paths (Script.CommonPrefixPos).
- The directory of a path with no '/' after position `ppos` is the whole rest of the path, not the text up to the last separator (m3dsync.cpp:343-344, the `npos` branch). With `ppos` 0, a root-level "/a.mp3" gives `mkdir -p "$dest//a.mp3"`, and the `cp` line then puts the file inside that new directory (Script.DirPart).
- Only backticks are escaped in `cp` lines; `$`, `"` and `\` are not.
- `comp` keeps a missing path whose size `stoull` refuses: the path is pushed before `stoull` throws (m3dsync.cpp:296-297), so it is listed and copied but adds nothing to `mem_sum` (Diff.Classify, whose missing outcome then has no size). The description says such lines are left out.
- `wasted_mem` counts only the members after the second of each group (see Findings).
- `lsdup` skips malformed lines during the scan, not before the sort. A malformed line that sorts between two records with one hash is skipped without breaking the run, so grouping is unaffected (Dedup.ScanIsFoldOfParsed).

## Findings

| source | as written | input that shows it | evidently intended | confidence | as-written member | corrected member |
|---|---|---|---|---|---|---|
| m3dsync.cpp:104-135 | in the `0F-` tier the read offset is `filesize - filesize - skipback`, which wraps to 2^32 - 128 when a "TAG" trailer was found | a 72-byte payload followed by a 128-byte ID3v1 block (200 bytes) | hash the whole payload before the trailer, from offset 0 | not executed | Sampling.AsWrittenDefined, Sampling.TaggedSmallFileUnreadable | Sampling.TrailerInvariance |
| m3dsync.cpp:426-435 | opening a group adds nothing to `wasted_mem`, so each group's first two members are never counted | records (H1,100,/a), (H1,200,/b), (H2,50,/c): `wasted_mem` is 0 | every member but one counts as wasted: 100 for this input | not executed | Dedup.ThreeRecordsAsWritten | Dedup.ThreeRecordsCorrected |

=== FILE: basics.dfy ===
/** Machine integers, optional values and the two string searches of std::string
    (`find` and `rfind`) in which the rest of the model is phrased. */
module Basics {

  datatype Option<+T> = None | Some(value: T)

  datatype Result<+T, +E> = Ok(value: T) | Err(error: E)

  const U32Modulus: int := 0x1_0000_0000
  const U64Modulus: int := 0x1_0000_0000_0000_0000

  /** C++ `unsigned` on the targets the program is built for. */
  type u32 = x: int | 0 <= x < U32Modulus

  /** C++ `unsigned long long` (and `size_t`). */
  type u64 = x: int | 0 <= x < U64Modulus

  type byte = x: int | 0 <= x < 256

  /** Conversion of any integer to `unsigned`: reduction modulo 2^32. */
  function Wrap32(x: int): (r: u32)
    ensures 0 <= x < U32Modulus ==> r == x
    ensures -U32Modulus <= x < 0 ==> r == x + U32Modulus
  {
    x % U32Modulus
  }

  /** Conversion of any integer to `unsigned long long`: reduction modulo 2^64. */
  function Wrap64(x: int): (r: u64)
    ensures 0 <= x < U64Modulus ==> r == x
    ensures -U64Modulus <= x < 0 ==> r == x + U64Modulus
  {
    x % U64Modulus
  }

  /** Adding to an already wrapped accumulator wraps like adding to the exact sum,
      so `acc += x` on `unsigned long long` computes the exact total modulo 2^64. */
  lemma {:induction false} WrapAdd64(a: int, b: int)
    ensures Wrap64(Wrap64(a) + b) == Wrap64(a + b)
  {
    var q := a / U64Modulus;
    assert a == q * U64Modulus + Wrap64(a);
    assert Wrap64(a) + b == (a + b) - q * U64Modulus;
    ModShift(a + b, q);
  }

  lemma {:induction false} ModShift(x: int, q: int)
    ensures (x - q * U64Modulus) % U64Modulus == x % U64Modulus
  {
    var k := x / U64Modulus;
    var m := x % U64Modulus;
    assert x - q * U64Modulus == (k - q) * U64Modulus + m;
  }

  /** `s.find(c, from)`: the first position at or after `from` holding `c`;
      `None` stands for `npos`. */
  function Find(s: string, c: char, from: nat): (r: Option<nat>)
    ensures r.Some? ==> from <= r.value < |s| && s[r.value] == c
    ensures r.Some? ==> forall j :: from <= j < r.value ==> s[j] != c
    ensures r.None? ==> forall j :: from <= j < |s| ==> s[j] != c
    decreases |s| - from
  {
    if from >= |s| then None
    else if s[from] == c then Some(from)
    else Find(s, c, from + 1)
  }

  /** `find` stops at the first occurrence: a position holding `c` with no `c`
      between `from` and it is the answer. */
  lemma {:induction false} FindIs(s: string, c: char, from: nat, k: nat)
    requires from <= k < |s| && s[k] == c
    requires forall j :: from <= j < k ==> s[j] != c
    ensures Find(s, c, from) == Some(k)
  {
  }

  /** `s.rfind(c)`: the last position holding `c`; `None` stands for `npos`. */
  function RFind(s: string, c: char): (r: Option<nat>)
    ensures r.Some? ==> r.value < |s| && s[r.value] == c
    ensures r.Some? ==> forall j :: r.value < j < |s| ==> s[j] != c
    ensures r.None? ==> c !in s
  {
    if |s| == 0 then None
    else if s[|s| - 1] == c then Some(|s| - 1)
    else
      var r := RFind(s[..|s| - 1], c);
      assert s == s[..|s| - 1] + [s[|s| - 1]];
      r
  }
}

=== FILE: dedup.dfy ===
/** `lsdup`: duplicate groups of one database. The lines are sorted, so records
    with the same fingerprint come next to each other, and one pass with carried
    state (the previous record's hash, path and size, and whether the previous
    record already extended a group) opens and extends groups. The reference the
    pass is proved against is the decomposition of the parsed records into maximal
    runs of equal hashes; every run of two or more records is a group. */
module Dedup {
  import opened Basics
  import opened Record
  import Order

  datatype DupGroup = DupGroup(memSum: u64, paths: seq<string>)

  datatype ScanState = ScanState(
    lastHash: string, lastPath: string, lastMem: u64, lastWereEqual: bool,
    groups: seq<DupGroup>, wasted: u64)

  /** The state before the first line: the sentinels "#" and no group. */
  const Initial: ScanState := ScanState("#", "#", 0, false, [], 0)

  /** The carried state seen as a record before the first line. */
  const Sentinel: Rec := Rec("#", 0, "#")

  /** `dup_groups.back()` exists whenever the previous record extended a group. */
  predicate Consistent(st: ScanState)
  {
    st.lastWereEqual ==> |st.groups| > 0
  }

  /** One well-formed record. `atOpening` selects what is added to `wasted_mem`
      when a group is opened: nothing, as the program does (`false`), or the
      size of the carried-over first member (`true`), so that every member but
      one counts as wasted. */
  function UpdateWith(atOpening: bool, st: ScanState, r: Rec): (st': ScanState)
    requires Consistent(st)
    ensures Consistent(st')
  {
    var equal := r.hash == st.lastHash;
    if equal && st.lastWereEqual then
      var n := |st.groups|;
      var g := st.groups[n - 1];
      var g' := DupGroup(Wrap64(g.memSum + r.size), g.paths + [r.path]);
      ScanState(r.hash, r.path, r.size, true, st.groups[..n - 1] + [g'], Wrap64(st.wasted + r.size))
    else if equal then
      var g := DupGroup(Wrap64(st.lastMem + r.size), [st.lastPath, r.path]);
      var wasted := if atOpening then Wrap64(st.wasted + st.lastMem) else st.wasted;
      ScanState(r.hash, r.path, r.size, true, st.groups + [g], wasted)
    else
      ScanState(r.hash, r.path, r.size, false, st.groups, st.wasted)
  }

  /** One turn of the loop over the sorted lines; a line `ParseRecord` refuses
      (the `logic_error` caught and reported) leaves the state as it was. */
  function Step(st: ScanState, line: string): (st': ScanState)
    requires Consistent(st)
    ensures Consistent(st')
    ensures ParseRecord(line).Err? ==> st' == st
    ensures ParseRecord(line).Ok? ==>
      (st'.lastHash == ParseRecord(line).value.hash
       && st'.lastPath == ParseRecord(line).value.path && st'.lastMem == ParseRecord(line).value.size)
  {
    match ParseRecord(line)
    case Err(_) => st
    case Ok(r) => UpdateWith(false, st, r)
  }

  /** The loop over the lines, first to last. */
  function Scan(lines: seq<string>): (st: ScanState)
    ensures Consistent(st)
  {
    if |lines| == 0 then Initial else Step(Scan(lines[..|lines| - 1]), lines[|lines| - 1])
  }

  /** The loop over the well-formed records, with either accounting of `wasted_mem`. */
  function Fold(atOpening: bool, rs: seq<Rec>): (st: ScanState)
    ensures Consistent(st)
  {
    if |rs| == 0 then Initial else UpdateWith(atOpening, Fold(atOpening, rs[..|rs| - 1]), rs[|rs| - 1])
  }

  /** The records of the lines `ParseRecord` accepts, in order. */
  function Parsed(lines: seq<string>): seq<Rec>
  {
    if |lines| == 0 then []
    else
      var last := ParseRecord(lines[|lines| - 1]);
      Parsed(lines[..|lines| - 1]) + (if last.Ok? then [last.value] else [])
  }

  /** Skipping a refused line is the same as leaving it out beforehand. */
  lemma {:induction false} ScanIsFoldOfParsed(lines: seq<string>)
    ensures Scan(lines) == Fold(false, Parsed(lines))
  {
    if |lines| > 0 {
      var pre := lines[..|lines| - 1];
      ScanIsFoldOfParsed(pre);
      var last := ParseRecord(lines[|lines| - 1]);
      var ps := Parsed(lines);
      if last.Ok? {
        assert ps == Parsed(pre) + [last.value];
        assert ps[..|ps| - 1] == Parsed(pre);
      } else {
        assert ps == Parsed(pre) + [];
        assert ps == Parsed(pre);
      }
    }
  }

  // ---------------------------------------------------------------------------
  // The reference: maximal runs of equal hashes

  function Last<T>(s: seq<T>): T
    requires |s| > 0
  {
    s[|s| - 1]
  }

  /** The records cut into maximal runs of equal hashes, built record by record. */
  function Runs(rs: seq<Rec>): (runs: seq<seq<Rec>>)
    ensures |rs| > 0 <==> |runs| > 0
  {
    if |rs| == 0 then []
    else
      var pre := Runs(rs[..|rs| - 1]);
      var r := rs[|rs| - 1];
      if |rs| >= 2 && rs[|rs| - 2].hash == r.hash then pre[..|pre| - 1] + [Last(pre) + [r]]
      else pre + [[r]]
  }

  function Flatten(runs: seq<seq<Rec>>): seq<Rec>
  {
    if |runs| == 0 then [] else Flatten(runs[..|runs| - 1]) + Last(runs)
  }

  /** A decomposition into runs: non-empty runs, one hash per run, neighbouring
      runs with different hashes. */
  predicate IsRuns(runs: seq<seq<Rec>>)
  {
    (forall i :: 0 <= i < |runs| ==> |runs[i]| > 0)
    && (forall i, j :: 0 <= i < |runs| && 0 <= j < |runs[i]| ==> runs[i][j].hash == runs[i][0].hash)
    && (forall i :: 0 <= i < |runs| - 1 ==> runs[i][0].hash != runs[i + 1][0].hash)
  }

  lemma {:induction false} FlattenSnoc(runs: seq<seq<Rec>>, x: seq<Rec>)
    ensures Flatten(runs + [x]) == Flatten(runs) + x
  {
    assert (runs + [x])[..|runs|] == runs;
  }

  /** `Runs` loses nothing and keeps the order of the records. */
  lemma {:induction false} RunsFlatten(rs: seq<Rec>)
    ensures Flatten(Runs(rs)) == rs
  {
    if |rs| > 0 {
      var pre, r := rs[..|rs| - 1], Last(rs);
      RunsFlatten(pre);
      assert rs == pre + [r];
      RunsFlattenStep(pre, r);
    }
  }

  lemma {:induction false} RunsFlattenStep(pre: seq<Rec>, r: Rec)
    requires Flatten(Runs(pre)) == pre
    ensures Flatten(Runs(pre + [r])) == pre + [r]
  {
    var pr := Runs(pre);
    if |pre| == 0 {
      assert pre + [r] == [r];
      RunsOne(r);
      assert [[r]] == pr + [[r]];
      FlattenSnoc(pr, [r]);
    } else {
      RunsSnoc(pre, r);
      if r.hash == Last(pre).hash {
        FlattenExtend(pr, r);
      } else {
        FlattenSnoc(pr, [r]);
      }
    }
  }

  /** Appending a record to the last run appends it to the flattening. */
  lemma {:induction false} FlattenExtend(runs: seq<seq<Rec>>, r: Rec)
    requires |runs| > 0
    ensures Flatten(runs[..|runs| - 1] + [Last(runs) + [r]]) == Flatten(runs) + [r]
  {
    var init, last := runs[..|runs| - 1], Last(runs);
    assert runs == init + [last];
    FlattenSnoc(init, last);
    FlattenSnoc(init, last + [r]);
    assert Flatten(init) + (last + [r]) == (Flatten(init) + last) + [r];
  }

  /** The last run ends with the last record and carries its hash. */
  lemma {:induction false} RunsLast(rs: seq<Rec>)
    requires |rs| > 0
    ensures Last(Last(Runs(rs))) == Last(rs)
    ensures Last(Runs(rs))[0].hash == Last(rs).hash
  {
    var pre, r := rs[..|rs| - 1], Last(rs);
    if |rs| >= 2 && rs[|rs| - 2].hash == r.hash {
      RunsLast(pre);
      assert pre[|pre| - 1] == rs[|rs| - 2];
    }
  }

  /** `Runs` cuts the records into maximal runs: one hash per run, neighbouring
      runs with different hashes. */
  lemma {:induction false} RunsAreMaximal(rs: seq<Rec>)
    ensures IsRuns(Runs(rs))
  {
    if |rs| > 0 {
      var pre, r := rs[..|rs| - 1], Last(rs);
      RunsAreMaximal(pre);
      var pr := Runs(pre);
      if |rs| >= 2 && rs[|rs| - 2].hash == r.hash {
        RunsLast(pre);
        assert pre[|pre| - 1] == rs[|rs| - 2];
        MergeKeepsRuns(pr, r);
      } else {
        if |pre| > 0 {
          RunsLast(pre);
          assert pre[|pre| - 1] == rs[|rs| - 2];
        }
        NewRunKeepsRuns(pr, r);
      }
    }
  }

  lemma {:induction false} MergeKeepsRuns(pr: seq<seq<Rec>>, r: Rec)
    requires IsRuns(pr) && |pr| > 0 && Last(pr)[0].hash == r.hash
    ensures IsRuns(pr[..|pr| - 1] + [Last(pr) + [r]])
  {
    var runs: seq<seq<Rec>> := pr[..|pr| - 1] + [Last(pr) + [r]];
    forall i, j | 0 <= i < |runs| && 0 <= j < |runs[i]|
      ensures runs[i][j].hash == runs[i][0].hash
    {
      if i < |pr| - 1 {
        assert runs[i] == pr[i];
      } else if j < |Last(pr)| {
        assert runs[i][j] == pr[i][j] && runs[i][0] == pr[i][0];
      } else {
        assert runs[i][0] == pr[i][0];
      }
    }
    forall i | 0 <= i < |runs| - 1
      ensures runs[i][0].hash != runs[i + 1][0].hash
    {
      assert runs[i] == pr[i];
      assert runs[i + 1][0] == pr[i + 1][0];
    }
  }

  lemma {:induction false} NewRunKeepsRuns(pr: seq<seq<Rec>>, r: Rec)
    requires IsRuns(pr) && (|pr| > 0 ==> Last(pr)[0].hash != r.hash)
    ensures IsRuns(pr + [[r]])
  {
    var runs: seq<seq<Rec>> := pr + [[r]];
    forall i, j | 0 <= i < |runs| && 0 <= j < |runs[i]|
      ensures runs[i][j].hash == runs[i][0].hash
    {
      if i < |pr| {
        assert runs[i] == pr[i];
      }
    }
    forall i | 0 <= i < |runs| - 1
      ensures runs[i][0].hash != runs[i + 1][0].hash
    {
      assert runs[i] == pr[i];
      if i + 1 < |pr| {
        assert runs[i + 1] == pr[i + 1];
      }
    }
  }

  function SumSizes(run: seq<Rec>): nat
  {
    if |run| == 0 then 0 else SumSizes(run[..|run| - 1]) + Last(run).size
  }

  function Paths(run: seq<Rec>): (ps: seq<string>)
    ensures |ps| == |run|
    ensures forall i :: 0 <= i < |run| ==> ps[i] == run[i].path
  {
    if |run| == 0 then [] else Paths(run[..|run| - 1]) + [Last(run).path]
  }

  /** The group a run of two or more records forms: the wrapped sum of its sizes
      and all its paths, in order. */
  function GroupOf(run: seq<Rec>): DupGroup
  {
    DupGroup(Wrap64(SumSizes(run)), Paths(run))
  }

  /** The groups of the runs with at least two records, in order. */
  function RefGroups(runs: seq<seq<Rec>>): seq<DupGroup>
  {
    if |runs| == 0 then []
    else RefGroups(runs[..|runs| - 1]) + (if |Last(runs)| >= 2 then [GroupOf(Last(runs))] else [])
  }

  /** The sizes of the records of a run from position `from` on. */
  function SizesFrom(run: seq<Rec>, from: nat): nat
  {
    if |run| <= from then 0 else SizesFrom(run[..|run| - 1], from) + Last(run).size
  }

  /** What one run adds to `wasted_mem`: the sizes from its third record on, and
      with `atOpening` also its first record's size once a second one joins. */
  function RunWaste(atOpening: bool, run: seq<Rec>): nat
  {
    SizesFrom(run, 2) + (if atOpening && |run| >= 2 then run[0].size else 0)
  }

  /** The waste of all runs, unwrapped. */
  function Wasted(atOpening: bool, runs: seq<seq<Rec>>): nat
  {
    if |runs| == 0 then 0 else Wasted(atOpening, runs[..|runs| - 1]) + RunWaste(atOpening, Last(runs))
  }

  /** The carried state `st` describes the runs of the records `all` read so far
      (the sentinel record first): the previous record is the last one,
      `last_were_equal` says whether the last run has two or more records, the
      groups are the runs with two or more records, and `wasted_mem` is the
      wrapped waste of the runs. */
  predicate Tracks(atOpening: bool, st: ScanState, all: seq<Rec>)
    requires |all| > 0
  {
    var runs := Runs(all);
    st.lastHash == Last(all).hash && st.lastPath == Last(all).path && st.lastMem == Last(all).size
    && st.lastWereEqual == (|Last(runs)| >= 2)
    && st.groups == RefGroups(runs)
    && st.wasted == Wrap64(Wasted(atOpening, runs))
  }

  /** The loop over any prefix of the records keeps to the runs of that prefix. */
  lemma {:induction false} FoldTracksRuns(atOpening: bool, rs: seq<Rec>)
    ensures Tracks(atOpening, Fold(atOpening, rs), [Sentinel] + rs)
  {
    if |rs| == 0 {
      assert [Sentinel] + rs == [Sentinel];
      InitialTracks(atOpening);
    } else {
      var pre, r := rs[..|rs| - 1], Last(rs);
      FoldTracksRuns(atOpening, pre);
      assert [Sentinel] + rs == ([Sentinel] + pre) + [r];
      TracksStep(atOpening, Fold(atOpening, pre), [Sentinel] + pre, r);
    }
  }

  lemma {:induction false} InitialTracks(atOpening: bool)
    ensures Tracks(atOpening, Initial, [Sentinel])
  {
    var none: seq<seq<Rec>> := [];
    assert [Sentinel][..0] == [];
    assert Runs([Sentinel]) == none + [[Sentinel]];
    NewRunAddsNothing(atOpening, none, Sentinel);
  }

  lemma {:induction false} TracksStep(atOpening: bool, st: ScanState, all: seq<Rec>, r: Rec)
    requires |all| > 0 && Consistent(st) && Tracks(atOpening, st, all)
    ensures Tracks(atOpening, UpdateWith(atOpening, st, r), all + [r])
  {
    var all' := all + [r];
    var runs := Runs(all);
    var before, R := runs[..|runs| - 1], Last(runs);
    RunsLast(all);
    RunsSnoc(all, r);
    assert runs == before + [R];
    if r.hash == st.lastHash {
      if st.lastWereEqual {
        ExtendCase(atOpening, st, before, R, r);
      } else {
        assert R == [Last(all)] by {
          assert |R| == 1 && R[0] == Last(R);
        }
        assert runs == before + [[Last(all)]];
        assert R + [r] == [Last(all), r];
        OpenCase(atOpening, st, before, Last(all), r);
      }
    } else {
      NewRunAddsNothing(atOpening, runs, r);
    }
  }

  /** One more record either extends the last run or opens a new one. */
  lemma {:induction false} RunsSnoc(all: seq<Rec>, r: Rec)
    requires |all| > 0
    ensures var runs := Runs(all);
      Runs(all + [r]) ==
        if r.hash == Last(all).hash then runs[..|runs| - 1] + [Last(runs) + [r]]
        else runs + [[r]]
  {
    var all' := all + [r];
    assert all'[..|all'| - 1] == all && all'[|all'| - 2] == Last(all) && Last(all') == r;
  }

  lemma {:induction false} ExtendCase(atOpening: bool, st: ScanState, before: seq<seq<Rec>>, R: seq<Rec>, r: Rec)
    requires |R| >= 2 && st.lastWereEqual && r.hash == st.lastHash
    requires st.groups == RefGroups(before + [R])
    requires st.wasted == Wrap64(Wasted(atOpening, before + [R]))
    ensures UpdateWith(atOpening, st, r).groups == RefGroups(before + [R + [r]])
    ensures UpdateWith(atOpening, st, r).wasted == Wrap64(Wasted(atOpening, before + [R + [r]]))
  {
    GroupStep(before, R, r);
    GroupExtends(R, r);
    var n := |st.groups|;
    assert st.groups[..n - 1] == RefGroups(before);
    WastedSnoc(atOpening, before, R);
    WastedSnoc(atOpening, before, R + [r]);
    SizesSnoc(R, r, 2);
    assert (R + [r])[0] == R[0];
    WrapAdd64(Wasted(atOpening, before + [R]), r.size);
  }

  lemma {:induction false} OpenCase(atOpening: bool, st: ScanState, before: seq<seq<Rec>>, p: Rec, r: Rec)
    requires !st.lastWereEqual && r.hash == st.lastHash && st.lastPath == p.path && st.lastMem == p.size
    requires st.groups == RefGroups(before + [[p]])
    requires st.wasted == Wrap64(Wasted(atOpening, before + [[p]]))
    ensures UpdateWith(atOpening, st, r).groups == RefGroups(before + [[p, r]])
    ensures UpdateWith(atOpening, st, r).wasted == Wrap64(Wasted(atOpening, before + [[p, r]]))
  {
    assert [p] + [r] == [p, r];
    GroupStep(before, [p], r);
    GroupOpens(p, r);
    WastedSnoc(atOpening, before, [p]);
    WastedSnoc(atOpening, before, [p, r]);
    assert RunWaste(atOpening, [p]) == 0;
    assert [p, r][..1] == [p];
    assert SizesFrom([p, r], 2) == 0;
    WrapAdd64(Wasted(atOpening, before + [[p]]), p.size);
  }

  lemma {:induction false} NewRunAddsNothing(atOpening: bool, runs: seq<seq<Rec>>, r: Rec)
    ensures RefGroups(runs + [[r]]) == RefGroups(runs)
    ensures Wasted(atOpening, runs + [[r]]) == Wasted(atOpening, runs)
  {
    assert (runs + [[r]])[..|runs|] == runs;
    assert RunWaste(atOpening, [r]) == 0;
  }

  lemma {:induction false} WastedSnoc(atOpening: bool, before: seq<seq<Rec>>, X: seq<Rec>)
    ensures Wasted(atOpening, before + [X]) == Wasted(atOpening, before) + RunWaste(atOpening, X)
  {
    assert (before + [X])[..|before|] == before;
  }

  /** Appending a record to the last run changes only the last group. */
  lemma {:induction false} GroupStep(before: seq<seq<Rec>>, R: seq<Rec>, r: Rec)
    requires |R| > 0
    ensures RefGroups(before + [R + [r]]) == RefGroups(before) + [GroupOf(R + [r])]
    ensures RefGroups(before + [R]) == RefGroups(before) + (if |R| >= 2 then [GroupOf(R)] else [])
  {
    assert (before + [R + [r]])[..|before|] == before;
    assert (before + [R])[..|before|] == before;
  }

  lemma {:induction false} SizesSnoc(R: seq<Rec>, r: Rec, from: nat)
    ensures SizesFrom(R + [r], from) == SizesFrom(R, from) + (if |R| >= from then r.size else 0)
  {
    assert (R + [r])[..|R|] == R;
    if |R| < from {
      assert SizesFrom(R, from) == 0;
    }
  }

  lemma {:induction false} GroupExtends(R: seq<Rec>, r: Rec)
    requires |R| > 0
    ensures GroupOf(R + [r]) == DupGroup(Wrap64(GroupOf(R).memSum + r.size), GroupOf(R).paths + [r.path])
  {
    assert (R + [r])[..|R|] == R;
    WrapAdd64(SumSizes(R), r.size);
  }

  lemma {:induction false} GroupOpens(p: Rec, r: Rec)
    ensures GroupOf([p, r]) == DupGroup(Wrap64(p.size + r.size), [p.path, r.path])
  {
    assert [p, r][..1] == [p];
    assert [p][..0] == [];
    assert SumSizes([p]) == p.size;
    assert Paths([p]) == [p.path];
    assert SumSizes([p, r]) == p.size + r.size;
    assert Paths([p, r]) == [p.path, r.path];
  }

  // ---------------------------------------------------------------------------
  // What the scan computes

  /** The scan over the lines computes the groups of the maximal runs of the
      well-formed records (the sentinel record in front), and `wasted_mem` adds up
      the sizes of the members after the second of each run. */
  lemma {:induction false} ScanFollowsRuns(lines: seq<string>)
    ensures var runs := Runs([Sentinel] + Parsed(lines));
      Scan(lines).groups == RefGroups(runs)
      && Scan(lines).wasted == Wrap64(Wasted(false, runs))
      && Scan(lines).lastWereEqual == (|Last(runs)| >= 2)
  {
    ScanIsFoldOfParsed(lines);
    FoldTracksRuns(false, Parsed(lines));
  }

  /** A group is the group of a run with two or more records, and every such run
      gives a group. */
  lemma {:induction false} RefGroupsMembers(runs: seq<seq<Rec>>)
    ensures forall g :: g in RefGroups(runs) <==>
      exists i :: 0 <= i < |runs| && |runs[i]| >= 2 && GroupOf(runs[i]) == g
  {
    forall g
      ensures g in RefGroups(runs) <==>
        exists i :: 0 <= i < |runs| && |runs[i]| >= 2 && GroupOf(runs[i]) == g
    {
      RefGroupsMember(runs, g);
    }
  }

  lemma {:induction false} RefGroupsMember(runs: seq<seq<Rec>>, g: DupGroup)
    ensures g in RefGroups(runs) <==> HasGroup(runs, g)
  {
    if |runs| > 0 {
      RefGroupsMember(runs[..|runs| - 1], g);
      RefGroupsMemberStep(runs, g);
    }
  }

  /** Some run of two or more records has the group `g`. */
  predicate HasGroup(runs: seq<seq<Rec>>, g: DupGroup)
  {
    exists i :: 0 <= i < |runs| && |runs[i]| >= 2 && GroupOf(runs[i]) == g
  }

  lemma {:induction false} RefGroupsMemberStep(runs: seq<seq<Rec>>, g: DupGroup)
    requires |runs| > 0
    requires g in RefGroups(runs[..|runs| - 1]) <==> HasGroup(runs[..|runs| - 1], g)
    ensures g in RefGroups(runs) <==> HasGroup(runs, g)
  {
    var init, R := runs[..|runs| - 1], Last(runs);
    var tail := if |R| >= 2 then [GroupOf(R)] else [];
    assert RefGroups(runs) == RefGroups(init) + tail;
    if g in RefGroups(init) {
      var i :| 0 <= i < |init| && |init[i]| >= 2 && GroupOf(init[i]) == g;
      assert runs[i] == init[i];
      assert HasGroup(runs, g);
    }
    if g in tail {
      assert runs[|runs| - 1] == R;
      assert HasGroup(runs, g);
    }
    if HasGroup(runs, g) {
      var i :| 0 <= i < |runs| && |runs[i]| >= 2 && GroupOf(runs[i]) == g;
      if i < |init| {
        assert init[i] == runs[i];
        assert HasGroup(init, g);
      } else {
        assert runs[i] == R;
        assert tail == [GroupOf(R)] && GroupOf(R) == g;
      }
    }
  }

  /** Every group `lsdup` reports holds the paths of two or more records with one
      hash, in the order of the sorted lines, and the wrapped sum of their sizes. */
  lemma {:induction false} ScanGroupsAreRuns(lines: seq<string>, g: DupGroup)
    requires g in Scan(lines).groups
    ensures exists run: seq<Rec> ::
      run in Runs([Sentinel] + Parsed(lines)) && |run| >= 2
      && (forall j :: 0 <= j < |run| ==> run[j].hash == run[0].hash)
      && g == DupGroup(Wrap64(SumSizes(run)), Paths(run))
  {
    ScanFollowsRuns(lines);
    RunsAreMaximal([Sentinel] + Parsed(lines));
    GroupIsRun(Runs([Sentinel] + Parsed(lines)), g);
  }

  lemma {:induction false} GroupIsRun(runs: seq<seq<Rec>>, g: DupGroup)
    requires IsRuns(runs) && g in RefGroups(runs)
    ensures exists run: seq<Rec> ::
      run in runs && |run| >= 2
      && (forall j :: 0 <= j < |run| ==> run[j].hash == run[0].hash)
      && g == DupGroup(Wrap64(SumSizes(run)), Paths(run))
  {
    RefGroupsMembers(runs);
    var i :| 0 <= i < |runs| && |runs[i]| >= 2 && GroupOf(runs[i]) == g;
    var run := runs[i];
    assert forall j :: 0 <= j < |run| ==> run[j].hash == run[0].hash;
    assert run in runs;
  }

  /** What the two accountings of `wasted_mem` leave out of a run of two or more
      records: the program's leaves out the first two members, the corrected one
      only one member (the second), so that all copies but one count as waste. */
  lemma {:induction false} RunWasteMeaning(run: seq<Rec>)
    requires |run| >= 2
    ensures RunWaste(false, run) + run[0].size + run[1].size == SumSizes(run)
    ensures RunWaste(true, run) + run[1].size == SumSizes(run)
  {
    SizesFromSplit(run, 2);
    var t := run[..2];
    assert t[..1] == [run[0]] && [run[0]][..0] == [];
    assert SumSizes([run[0]]) == run[0].size;
    assert SumSizes(t) == run[0].size + run[1].size;
  }

  lemma {:induction false} SizesFromSplit(run: seq<Rec>, from: nat)
    requires from <= |run|
    ensures SizesFrom(run, from) + SumSizes(run[..from]) == SumSizes(run)
  {
    if |run| > from {
      SizesFromSplit(run[..|run| - 1], from);
      assert run[..|run| - 1][..from] == run[..from];
    } else {
      assert run[..from] == run;
    }
  }

  // ---------------------------------------------------------------------------
  // The sentinel

  /** The sentinel is a run of its own unless the first record carries its hash. */
  lemma {:induction false} RunsCons(s: Rec, rs: seq<Rec>)
    requires |rs| == 0 || rs[0].hash != s.hash
    ensures Runs([s] + rs) == [[s]] + Runs(rs)
  {
    if |rs| == 0 {
      assert [s] + rs == [s];
      RunsOne(s);
    } else {
      var pre, r := rs[..|rs| - 1], Last(rs);
      assert [s] + rs == ([s] + pre) + [r];
      assert rs == pre + [r];
      RunsCons(s, pre);
      RunsConsStep(s, pre, r);
    }
  }

  lemma {:induction false} RunsConsStep(s: Rec, pre: seq<Rec>, r: Rec)
    requires |pre| == 0 ==> r.hash != s.hash
    requires Runs([s] + pre) == [[s]] + Runs(pre)
    ensures Runs(([s] + pre) + [r]) == [[s]] + Runs(pre + [r])
  {
    if |pre| == 0 {
      RunsConsTwo(s, r);
      assert [s] + pre == [s] && pre + [r] == [r];
    } else {
      RunsConsLonger(s, pre, r);
    }
  }

  lemma {:induction false} RunsConsTwo(s: Rec, r: Rec)
    requires r.hash != s.hash
    ensures Runs([s] + [r]) == [[s]] + Runs([r])
  {
    RunsSnoc([s], r);
    RunsOne(s);
    RunsOne(r);
  }

  lemma {:induction false} RunsConsLonger(s: Rec, pre: seq<Rec>, r: Rec)
    requires |pre| > 0 && Runs([s] + pre) == [[s]] + Runs(pre)
    ensures Runs(([s] + pre) + [r]) == [[s]] + Runs(pre + [r])
  {
    var all, pr := [s] + pre, Runs(pre);
    RunsSnoc(all, r);
    RunsSnoc(pre, r);
    assert Last(all) == Last(pre);
    ExtendBehindHead([s], pr, r);
  }

  /** Extending the last run commutes with a run put in front. */
  lemma {:induction false} ExtendBehindHead(S: seq<Rec>, pr: seq<seq<Rec>>, r: Rec)
    requires |pr| > 0
    ensures var R := [S] + pr;
      R[..|R| - 1] + [Last(R) + [r]] == [S] + (pr[..|pr| - 1] + [Last(pr) + [r]])
    ensures ([S] + pr) + [[r]] == [S] + (pr + [[r]])
  {
    var R := [S] + pr;
    assert R[..|R| - 1] == [S] + pr[..|pr| - 1];
  }

  lemma {:induction false} RunsOne(r: Rec)
    ensures Runs([r]) == [[r]]
  {
    assert [r][..0] == [];
  }

  lemma {:induction false} SentinelRunAddsNothing(atOpening: bool, s: Rec, runs: seq<seq<Rec>>)
    ensures RefGroups([[s]] + runs) == RefGroups(runs)
    ensures Wasted(atOpening, [[s]] + runs) == Wasted(atOpening, runs)
  {
    if |runs| == 0 {
      assert [[s]] + runs == [[s]];
      assert [[s]][..0] == [];
      assert [s][..0] == [];
    } else {
      SentinelRunAddsNothing(atOpening, s, runs[..|runs| - 1]);
      assert ([[s]] + runs)[..|runs|] == [[s]] + runs[..|runs| - 1];
    }
  }

  /** Unless the first well-formed line has the hash "#", the sentinel plays no
      part: the groups and `wasted_mem` are those of the records' own runs. */
  lemma {:induction false} SentinelInert(lines: seq<string>)
    requires |Parsed(lines)| == 0 || Parsed(lines)[0].hash != "#"
    ensures Scan(lines).groups == RefGroups(Runs(Parsed(lines)))
    ensures Scan(lines).wasted == Wrap64(Wasted(false, Runs(Parsed(lines))))
  {
    ScanFollowsRuns(lines);
    RunsCons(Sentinel, Parsed(lines));
    SentinelRunAddsNothing(false, Sentinel, Runs(Parsed(lines)));
  }

  /** A first record with the hash "#" is taken for a duplicate of the sentinel:
      a group with the sentinel path "#" is opened. */
  lemma {:induction false} SentinelJoinsGroup(size: u64, path: string)
    ensures Fold(false, [Rec("#", size, path)]).groups == [DupGroup(size, ["#", path])]
  {
    assert [Rec("#", size, path)][..0] == [];
  }

  // ---------------------------------------------------------------------------
  // Sorted lines keep the records of one hash together

  /** `idx` lists, ascending, the positions of the lines `ParseRecord` accepts. */
  predicate ParsedPositions(lines: seq<string>, idx: seq<nat>)
  {
    && |idx| == |Parsed(lines)|
    && (forall a :: 0 <= a < |idx| ==>
         idx[a] < |lines| && ParseRecord(lines[idx[a]]) == Ok(Parsed(lines)[a]))
    && (forall a, b :: 0 <= a < b < |idx| ==> idx[a] < idx[b])
  }

  /** The positions of the lines `ParseRecord` accepts, ascending. */
  function ParsedAt(lines: seq<string>): (idx: seq<nat>)
    ensures ParsedPositions(lines, idx)
  {
    if |lines| == 0 then []
    else
      var ip := ParsedAt(lines[..|lines| - 1]);
      var idx := ip + (if ParseRecord(lines[|lines| - 1]).Ok? then [|lines| - 1] else []);
      ParsedAtStep(lines, ip, idx);
      idx
  }

  lemma {:induction false} ParsedAtStep(lines: seq<string>, ip: seq<nat>, idx: seq<nat>)
    requires |lines| > 0 && ParsedPositions(lines[..|lines| - 1], ip)
    requires idx == ip + (if ParseRecord(lines[|lines| - 1]).Ok? then [|lines| - 1] else [])
    ensures ParsedPositions(lines, idx)
  {
    var pre := lines[..|lines| - 1];
    var last := ParseRecord(lines[|lines| - 1]);
    assert Parsed(lines) == Parsed(pre) + (if last.Ok? then [last.value] else []);
    forall a | 0 <= a < |ip|
      ensures idx[a] == ip[a] && lines[idx[a]] == pre[ip[a]]
      ensures Parsed(lines)[a] == Parsed(pre)[a]
    {
    }
  }

  /** Records with one hash are contiguous: a record between two records with
      the same hash has that hash too. */
  predicate Contiguous(rs: seq<Rec>)
  {
    forall i, j, k :: 0 <= i < j < k < |rs| && rs[i].hash == rs[k].hash ==> rs[j].hash == rs[i].hash
  }

  /** The reason the program sorts the lines first: in sorted lines, the
      well-formed records of one hash are contiguous. */
  lemma {:induction false} SortedLinesContiguous(lines: seq<string>)
    requires Order.Sorted(lines)
    ensures Contiguous(Parsed(lines))
  {
    var ps := Parsed(lines);
    var idx := ParsedAt(lines);
    forall i, j, k | 0 <= i < j < k < |ps| && ps[i].hash == ps[k].hash
      ensures ps[j].hash == ps[i].hash
    {
      SharedHash(lines[idx[i]], lines[idx[j]], lines[idx[k]], ps[i], ps[j], ps[k]);
    }
  }

  lemma {:induction false} SharedHash(a: string, b: string, c: string, ra: Rec, rb: Rec, rc: Rec)
    requires Order.LexLe(a, b) && Order.LexLe(b, c)
    requires ParseRecord(a) == Ok(ra) && ParseRecord(b) == Ok(rb) && ParseRecord(c) == Ok(rc)
    requires ra.hash == rc.hash
    ensures rb.hash == ra.hash
  {
    SharedHead(a, b, c, ra.hash, rb.hash);
  }

  /** Between two lines that start with `h` and a space, a line that starts with
      a space-free text and a space starts with `h` and a space. */
  lemma {:induction false} SharedHead(a: string, b: string, c: string, h: string, h2: string)
    requires Order.LexLe(a, b) && Order.LexLe(b, c)
    requires ' ' !in h && ' ' !in h2
    requires |h| + 1 <= |a| && a[..|h| + 1] == h + " "
    requires |h| + 1 <= |c| && c[..|h| + 1] == h + " "
    requires |h2| + 1 <= |b| && b[..|h2| + 1] == h2 + " "
    ensures h2 == h
  {
    Order.LexBetweenSharesPrefix(h + " ", a, b, c);
    HeadSplit(b, h);
    HeadSplit(b, h2);
    SameSpaceFreeHead(h, h2, b[|h|..], b[|h2|..]);
  }

  lemma {:induction false} HeadSplit(b: string, h: string)
    requires |h| + 1 <= |b| && b[..|h| + 1] == h + " "
    ensures b == h + b[|h|..] && b[|h|..][0] == ' '
  {
    assert b[|h|] == (h + " ")[|h|];
    assert b[..|h|] == b[..|h| + 1][..|h|];
  }

  lemma {:induction false} FlattenMember(runs: seq<seq<Rec>>, a: nat, x: Rec)
    requires a < |runs| && x in runs[a]
    ensures x in Flatten(runs)
  {
    var init := runs[..|runs| - 1];
    if a < |runs| - 1 {
      assert init[a] == runs[a];
      FlattenMember(init, a, x);
    }
  }

  /** No two runs start with the same hash. */
  predicate DistinctHeads(runs: seq<seq<Rec>>)
  {
    forall a, b :: 0 <= a < b < |runs| && |runs[a]| > 0 && |runs[b]| > 0 ==> runs[a][0].hash != runs[b][0].hash
  }

  /** For contiguous records, no two runs share a hash: every hash is one run. */
  lemma {:induction false} ContiguousRunsDistinct(rs: seq<Rec>)
    requires Contiguous(rs)
    ensures IsRuns(Runs(rs)) && DistinctHeads(Runs(rs))
  {
    RunsAreMaximal(rs);
    if |rs| > 0 {
      var pre, r := rs[..|rs| - 1], Last(rs);
      ContiguousPrefix(rs);
      ContiguousRunsDistinct(pre);
      var pr: seq<seq<Rec>> := Runs(pre);
      if |rs| >= 2 && rs[|rs| - 2].hash == r.hash {
        MergeKeepsDistinct(pr, r);
      } else {
        RunsFlatten(pre);
        forall a | 0 <= a < |pr|
          ensures pr[a][0].hash != r.hash
        {
          NewRunHeadDiffers(rs, pr, a);
        }
        NewRunKeepsDistinct(pr, r);
      }
    }
  }

  lemma {:induction false} ContiguousPrefix(rs: seq<Rec>)
    requires Contiguous(rs) && |rs| > 0
    ensures Contiguous(rs[..|rs| - 1])
  {
    var pre := rs[..|rs| - 1];
    forall i, j, k | 0 <= i < j < k < |pre| && pre[i].hash == pre[k].hash
      ensures pre[j].hash == pre[i].hash
    {
      assert pre[i] == rs[i] && pre[j] == rs[j] && pre[k] == rs[k];
    }
  }

  lemma {:induction false} MergeKeepsDistinct(pr: seq<seq<Rec>>, r: Rec)
    requires IsRuns(pr) && DistinctHeads(pr) && |pr| > 0
    ensures DistinctHeads(pr[..|pr| - 1] + [Last(pr) + [r]])
  {
    var runs: seq<seq<Rec>> := pr[..|pr| - 1] + [Last(pr) + [r]];
    forall a, b | 0 <= a < b < |runs| && |runs[a]| > 0 && |runs[b]| > 0
      ensures runs[a][0].hash != runs[b][0].hash
    {
      assert runs[a][0] == pr[a][0] && runs[b][0] == pr[b][0];
    }
  }

  lemma {:induction false} NewRunKeepsDistinct(pr: seq<seq<Rec>>, r: Rec)
    requires IsRuns(pr) && DistinctHeads(pr)
    requires forall a :: 0 <= a < |pr| ==> pr[a][0].hash != r.hash
    ensures DistinctHeads(pr + [[r]])
  {
    var runs: seq<seq<Rec>> := pr + [[r]];
    forall a, b | 0 <= a < b < |runs| && |runs[a]| > 0 && |runs[b]| > 0
      ensures runs[a][0].hash != runs[b][0].hash
    {
      if b < |pr| {
        assert runs[a] == pr[a] && runs[b] == pr[b];
      } else {
        assert runs[a] == pr[a] && runs[b] == [r];
      }
    }
  }

  lemma {:induction false} NewRunHeadDiffers(rs: seq<Rec>, pr: seq<seq<Rec>>, a: nat)
    requires Contiguous(rs) && |rs| > 0
    requires !(|rs| >= 2 && rs[|rs| - 2].hash == Last(rs).hash)
    requires pr == Runs(rs[..|rs| - 1]) && Flatten(pr) == rs[..|rs| - 1]
    requires IsRuns(pr) && a < |pr|
    ensures pr[a][0].hash != Last(rs).hash
  {
    var pre := rs[..|rs| - 1];
    FlattenMember(pr, a, pr[a][0]);
    var p :| 0 <= p < |pre| && pre[p] == pr[a][0];
    assert rs[p] == pre[p] && rs[|rs| - 2] == pre[|pre| - 1];
    if p < |pre| - 1 {
      var x, y, z := rs[p], rs[|rs| - 2], rs[|rs| - 1];
      assert x.hash == z.hash ==> y.hash == x.hash;
    }
  }

  /** In sorted lines every hash is one run of the well-formed records: the
      groups are exactly the hashes that occur twice or more. */
  lemma {:induction false} SortedLinesOneRunPerHash(lines: seq<string>)
    requires Order.Sorted(lines)
    ensures IsRuns(Runs(Parsed(lines))) && DistinctHeads(Runs(Parsed(lines)))
    ensures Flatten(Runs(Parsed(lines))) == Parsed(lines)
  {
    SortedLinesContiguous(lines);
    ContiguousRunsDistinct(Parsed(lines));
    RunsFlatten(Parsed(lines));
  }

  // ---------------------------------------------------------------------------
  // The accounting of `wasted_mem` on three records

  function ThreeRecords(): seq<Rec>
  {
    [Rec("H1", 100, "/a"), Rec("H1", 200, "/b"), Rec("H2", 50, "/c")]
  }

  /** As written: one group of 300 bytes, but nothing counted as wasted, since the
      group has no third member. */
  lemma {:induction false} ThreeRecordsAsWritten()
    ensures Fold(false, ThreeRecords()).groups == [DupGroup(300, ["/a", "/b"])]
    ensures Fold(false, ThreeRecords()).wasted == 0
  {
    ThreeRecordsFold(false);
  }

  /** Corrected: the same group, and the 100 bytes of the copy beyond the one kept. */
  lemma {:induction false} ThreeRecordsCorrected()
    ensures Fold(true, ThreeRecords()).groups == [DupGroup(300, ["/a", "/b"])]
    ensures Fold(true, ThreeRecords()).wasted == 100
  {
    ThreeRecordsFold(true);
  }

  lemma {:induction false} ThreeRecordsFold(atOpening: bool)
    ensures Fold(atOpening, ThreeRecords()).groups == [DupGroup(300, ["/a", "/b"])]
    ensures Fold(atOpening, ThreeRecords()).wasted == if atOpening then 100 else 0
  {
    var rs := ThreeRecords();
    assert rs[..2] == [rs[0], rs[1]] && rs[..2][..1] == [rs[0]] && [rs[0]][..0] == [];
    var s0 := Fold(atOpening, []);
    assert s0 == Initial;
    var s1 := Fold(atOpening, [rs[0]]);
    assert s1 == UpdateWith(atOpening, s0, rs[0]);
    assert s1 == ScanState("H1", "/a", 100, false, [], 0);
    var s2 := Fold(atOpening, [rs[0], rs[1]]);
    assert s2 == UpdateWith(atOpening, s1, rs[1]);
    assert s2.groups == [DupGroup(300, ["/a", "/b"])];
    assert s2.wasted == if atOpening then 100 else 0;
    assert Fold(atOpening, rs) == UpdateWith(atOpening, s2, rs[2]);
  }

  // ---------------------------------------------------------------------------
  // Reading the lines, ordering the groups, writing the report

  /** The lines between the newlines, including a last (possibly empty) piece
      after the final newline: `while (good()) { getline; push_back; }`. */
  function ReadLines(text: string): (lines: seq<string>)
    ensures |lines| >= 1
    ensures forall i :: 0 <= i < |lines| ==> '\n' !in lines[i]
    decreases |text|
  {
    match Find(text, '\n', 0)
    case None => [text]
    case Some(k) => [text[..k]] + ReadLines(text[k + 1..])
  }

  /** The text the lines come from: the lines with a newline between each two. */
  function JoinLines(lines: seq<string>): string
    requires |lines| >= 1
  {
    if |lines| == 1 then lines[0] else lines[0] + "\n" + JoinLines(lines[1..])
  }

  /** Reading loses nothing: joining the lines gives back the text. */
  lemma {:induction false} JoinReadLines(text: string)
    ensures JoinLines(ReadLines(text)) == text
    decreases |text|
  {
    match Find(text, '\n', 0)
    case None =>
    case Some(k) =>
      JoinReadLines(text[k + 1..]);
      JoinReadStep(text, k);
  }

  lemma {:induction false} JoinReadStep(text: string, k: nat)
    requires Find(text, '\n', 0) == Some(k)
    requires JoinLines(ReadLines(text[k + 1..])) == text[k + 1..]
    ensures JoinLines(ReadLines(text)) == text
  {
    var head, tail := text[..k], text[k + 1..];
    var rest := ReadLines(tail);
    assert ReadLines(text) == [head] + rest;
    JoinLinesCons(head, rest);
    assert text == head + "\n" + tail;
  }

  lemma {:induction false} JoinLinesCons(line: string, rest: seq<string>)
    requires |rest| >= 1
    ensures JoinLines([line] + rest) == line + "\n" + JoinLines(rest)
  {
    assert ([line] + rest)[1..] == rest;
  }

  /** And lines without newlines are read back as they were joined. */
  lemma {:induction false} ReadJoinLines(lines: seq<string>)
    requires |lines| >= 1 && forall i :: 0 <= i < |lines| ==> '\n' !in lines[i]
    ensures ReadLines(JoinLines(lines)) == lines
  {
    var text := JoinLines(lines);
    if |lines| == 1 {
      assert Find(text, '\n', 0) == None;
    } else {
      var line, rest := lines[0], JoinLines(lines[1..]);
      assert lines == [line] + lines[1..];
      JoinLinesCons(line, lines[1..]);
      FindIs(text, '\n', 0, |line|);
      assert text[..|line|] == line;
      assert text[|line| + 1..] == rest;
      ReadJoinLines(lines[1..]);
    }
  }

  predicate NonIncreasing(gs: seq<DupGroup>)
  {
    forall i, j :: 0 <= i < j < |gs| ==> gs[i].memSum >= gs[j].memSum
  }

  function InsertGroup(g: DupGroup, gs: seq<DupGroup>): (r: seq<DupGroup>)
    requires NonIncreasing(gs)
    ensures NonIncreasing(r)
    ensures multiset(r) == multiset(gs) + multiset{g}
  {
    if |gs| == 0 then [g]
    else if g.memSum >= gs[0].memSum then
      InsertGroupHead(g, gs);
      [g] + gs
    else
      var rest := InsertGroup(g, gs[1..]);
      InsertGroupBelow(g, gs, rest);
      [gs[0]] + rest
  }

  lemma {:induction false} InsertGroupHead(g: DupGroup, gs: seq<DupGroup>)
    requires NonIncreasing(gs) && |gs| > 0 && g.memSum >= gs[0].memSum
    ensures NonIncreasing([g] + gs)
  {
    var r := [g] + gs;
    forall i, j | 0 <= i < j < |r|
      ensures r[i].memSum >= r[j].memSum
    {
      assert r[j] == gs[j - 1];
      if i > 0 {
        assert r[i] == gs[i - 1];
      }
    }
  }

  lemma {:induction false} InsertGroupBelow(g: DupGroup, gs: seq<DupGroup>, rest: seq<DupGroup>)
    requires NonIncreasing(gs) && |gs| > 0 && g.memSum < gs[0].memSum
    requires NonIncreasing(rest) && multiset(rest) == multiset(gs[1..]) + multiset{g}
    ensures NonIncreasing([gs[0]] + rest)
    ensures multiset([gs[0]] + rest) == multiset(gs) + multiset{g}
  {
    var r := [gs[0]] + rest;
    forall j | 0 <= j < |rest|
      ensures gs[0].memSum >= rest[j].memSum
    {
      assert rest[j] in multiset(rest);
      if rest[j] != g {
        assert rest[j] in multiset(gs[1..]);
        var k :| 0 <= k < |gs[1..]| && gs[1..][k] == rest[j];
        assert gs[k + 1] == rest[j];
      }
    }
    forall i, j | 0 <= i < j < |r|
      ensures r[i].memSum >= r[j].memSum
    {
      assert r[j] == rest[j - 1];
      if i > 0 {
        assert r[i] == rest[i - 1];
      }
    }
    assert gs == [gs[0]] + gs[1..];
  }

  /** `sort(dup_groups, g.mem_sum > h.mem_sum)`: the groups by descending sum.
      Groups with equal sums may come in any order; this is one of them. */
  function SortGroups(gs: seq<DupGroup>): (r: seq<DupGroup>)
    ensures NonIncreasing(r)
    ensures multiset(r) == multiset(gs)
  {
    if |gs| == 0 then []
    else
      assert gs == [gs[0]] + gs[1..];
      InsertGroup(gs[0], SortGroups(gs[1..]))
  }

  /** The report: per group a line "# " and the formatted sum, the paths, and an
      empty line. `format` stands for the byte-count formatting the program
      takes from a library. */
  function ReportLines(gs: seq<DupGroup>, format: u64 -> string): seq<string>
  {
    if |gs| == 0 then []
    else ["# " + format(gs[0].memSum)] + gs[0].paths + [""] + ReportLines(gs[1..], format)
  }

  /** The report is empty exactly when there are no groups; otherwise it opens with a
      header and closes with the empty line of the last block. */
  lemma {:induction false} ReportLinesFrame(gs: seq<DupGroup>, format: u64 -> string)
    ensures var r := ReportLines(gs, format);
      (|gs| == 0 <==> r == [])
      && (|gs| > 0 ==> |r[0]| >= 2 && r[0][..2] == "# " && r[|r| - 1] == "")
  {
    if |gs| > 0 {
      ReportLinesFrame(gs[1..], format);
    }
  }

  /** A report block read back: the header text after "# " and the paths. */
  datatype Block = Block(header: string, paths: seq<string>)

  /** The lines up to the first empty one. */
  function TakePaths(lines: seq<string>): (r: seq<string>)
    ensures |r| <= |lines| && r == lines[..|r|]
    ensures forall i :: 0 <= i < |r| ==> lines[i] != ""
    ensures |r| < |lines| ==> lines[|r|] == ""
  {
    if |lines| == 0 || lines[0] == "" then [] else [lines[0]] + TakePaths(lines[1..])
  }

  /** Reads a report back into its blocks; `None` for text no report has. */
  function ReadReport(lines: seq<string>): Option<seq<Block>>
    decreases |lines|
  {
    if |lines| == 0 then Some([])
    else if |lines[0]| < 2 || lines[0][..2] != "# " then None
    else
      var paths := TakePaths(lines[1..]);
      if 1 + |paths| == |lines| then None
      else
        match ReadReport(lines[2 + |paths|..])
        case None => None
        case Some(bs) => Some([Block(lines[0][2..], paths)] + bs)
  }

  function Blocks(gs: seq<DupGroup>, format: u64 -> string): (bs: seq<Block>)
    ensures |bs| == |gs|
    ensures forall i :: 0 <= i < |gs| ==> bs[i] == Block(format(gs[i].memSum), gs[i].paths)
  {
    if |gs| == 0 then [] else [Block(format(gs[0].memSum), gs[0].paths)] + Blocks(gs[1..], format)
  }

  predicate PathsNonEmpty(gs: seq<DupGroup>)
  {
    forall i, j :: 0 <= i < |gs| && 0 <= j < |gs[i].paths| ==> gs[i].paths[j] != ""
  }

  /** The report can be read back group by group, as long as no path is empty
      (an empty line ends a group). */
  lemma {:induction false} ReadReportLines(gs: seq<DupGroup>, format: u64 -> string)
    requires PathsNonEmpty(gs)
    ensures ReadReport(ReportLines(gs, format)) == Some(Blocks(gs, format))
  {
    if |gs| > 0 {
      var g := gs[0];
      var head := "# " + format(g.memSum);
      var rest := ReportLines(gs[1..], format);
      var lines := ReportLines(gs, format);
      assert lines == [head] + (g.paths + [""] + rest);
      assert lines[0][..2] == "# " && lines[0][2..] == format(g.memSum);
      TakePathsOf(g.paths, rest);
      assert lines[1..] == g.paths + [""] + rest;
      assert lines[2 + |g.paths|..] == rest;
      assert PathsNonEmpty(gs[1..]) by {
        forall i, j | 0 <= i < |gs[1..]| && 0 <= j < |gs[1..][i].paths|
          ensures gs[1..][i].paths[j] != ""
        {
          assert gs[1..][i] == gs[i + 1];
        }
      }
      ReadReportLines(gs[1..], format);
      assert Blocks(gs, format) == [Block(format(g.memSum), g.paths)] + Blocks(gs[1..], format);
    }
  }

  lemma {:induction false} TakePathsOf(paths: seq<string>, rest: seq<string>)
    requires forall j :: 0 <= j < |paths| ==> paths[j] != ""
    ensures TakePaths(paths + [""] + rest) == paths
  {
    var lines := paths + [""] + rest;
    if |paths| > 0 {
      assert lines[0] == paths[0];
      assert lines[1..] == paths[1..] + [""] + rest;
      TakePathsOf(paths[1..], rest);
      assert paths == [paths[0]] + paths[1..];
    } else {
      assert lines[0] == "";
    }
  }

  /** Every path the scan puts into a group is non-empty: `ParseRecord` refuses
      an empty path and the sentinel path is "#". */
  lemma {:induction false} FoldPathsNonEmpty(atOpening: bool, rs: seq<Rec>)
    requires forall i :: 0 <= i < |rs| ==> rs[i].path != ""
    ensures Fold(atOpening, rs).lastPath != ""
    ensures PathsNonEmpty(Fold(atOpening, rs).groups)
  {
    if |rs| > 0 {
      var pre := rs[..|rs| - 1];
      FoldPathsNonEmpty(atOpening, pre);
      var st := Fold(atOpening, pre);
      var r := rs[|rs| - 1];
      var st' := UpdateWith(atOpening, st, r);
      assert st' == Fold(atOpening, rs);
      forall i, j | 0 <= i < |st'.groups| && 0 <= j < |st'.groups[i].paths|
        ensures st'.groups[i].paths[j] != ""
      {
        if i < |st.groups| - 1 || (i < |st.groups| && !(r.hash == st.lastHash && st.lastWereEqual)) {
          assert st'.groups[i] == st.groups[i];
        }
      }
    }
  }

  lemma {:induction false} ParsedPathsNonEmpty(lines: seq<string>)
    ensures forall i :: 0 <= i < |Parsed(lines)| ==> Parsed(lines)[i].path != ""
  {
    var ps := Parsed(lines);
    var idx := ParsedAt(lines);
    forall i | 0 <= i < |ps|
      ensures ps[i].path != ""
    {
      assert ParseRecord(lines[idx[i]]) == Ok(ps[i]);
    }
  }

  /** What `lsdup` hands back: the ordered groups, `wasted_mem`, and the lines
      of the report file. */
  datatype DupReport = DupReport(groups: seq<DupGroup>, wasted: u64, report: seq<string>)

  /** The sorted lines of a database text. */
  function SortedLines(text: string): (lines: seq<string>)
    ensures Order.Sorted(lines)
    ensures multiset(lines) == multiset(ReadLines(text))
  {
    Order.Sort(ReadLines(text))
  }

  /** `lsdup` over a database text with either accounting of `wasted_mem`: the
      groups are those of the runs of equal hashes in the sorted lines, ordered
      by descending sum, and the report reads back as those groups. */
  function LsdupWith(atOpening: bool, text: string, format: u64 -> string): (r: DupReport)
    ensures var runs := Runs([Sentinel] + Parsed(SortedLines(text)));
      multiset(r.groups) == multiset(RefGroups(runs))
      && NonIncreasing(r.groups)
      && r.wasted == Wrap64(Wasted(atOpening, runs))
      && ReadReport(r.report) == Some(Blocks(r.groups, format))
  {
    var rs := Parsed(SortedLines(text));
    var st := Fold(atOpening, rs);
    var gs := SortGroups(st.groups);
    FoldTracksRuns(atOpening, rs);
    ParsedPathsNonEmpty(SortedLines(text));
    FoldPathsNonEmpty(atOpening, rs);
    SortedPathsNonEmpty(st.groups, gs);
    ReadReportLines(gs, format);
    DupReport(gs, st.wasted, ReportLines(gs, format))
  }

  lemma {:induction false} SortedPathsNonEmpty(gs: seq<DupGroup>, sorted: seq<DupGroup>)
    requires PathsNonEmpty(gs) && multiset(sorted) == multiset(gs)
    ensures PathsNonEmpty(sorted)
  {
    forall i, j | 0 <= i < |sorted| && 0 <= j < |sorted[i].paths|
      ensures sorted[i].paths[j] != ""
    {
      assert sorted[i] in multiset(gs);
      var k :| 0 <= k < |gs| && gs[k] == sorted[i];
    }
  }

  /** `lsdup` as written. */
  function Lsdup(text: string, format: u64 -> string): (r: DupReport)
    ensures multiset(r.groups) == multiset(Scan(SortedLines(text)).groups)
    ensures r.wasted == Scan(SortedLines(text)).wasted
    ensures NonIncreasing(r.groups)
    ensures ReadReport(r.report) == Some(Blocks(r.groups, format))
  {
    ScanIsFoldOfParsed(SortedLines(text));
    LsdupWith(false, text, format)
  }

  /** The groups `lsdup` reports are exactly the hashes that two or more
      well-formed lines share, each once, with all its paths; the first line's hash
      must not be the sentinel "#". */
  lemma {:induction false} LsdupGroupsAreHashes(text: string, format: u64 -> string)
    requires var ps := Parsed(SortedLines(text)); |ps| == 0 || ps[0].hash != "#"
    ensures var runs := Runs(Parsed(SortedLines(text)));
      (forall g :: g in Lsdup(text, format).groups <==>
        exists i :: 0 <= i < |runs| && |runs[i]| >= 2 && GroupOf(runs[i]) == g)
      && IsRuns(runs) && DistinctHeads(runs)
      && Flatten(runs) == Parsed(SortedLines(text))
  {
    var lines := SortedLines(text);
    var runs := Runs(Parsed(lines));
    LsdupGroupsOfRuns(text, format);
    RefGroupsMembers(runs);
    SortedLinesOneRunPerHash(lines);
  }

  lemma {:induction false} LsdupGroupsOfRuns(text: string, format: u64 -> string)
    requires var ps := Parsed(SortedLines(text)); |ps| == 0 || ps[0].hash != "#"
    ensures forall g :: g in Lsdup(text, format).groups <==> g in RefGroups(Runs(Parsed(SortedLines(text))))
  {
    var lines := SortedLines(text);
    var runs := Runs(Parsed(lines));
    var gs := Lsdup(text, format).groups;
    SentinelInert(lines);
    assert multiset(gs) == multiset(RefGroups(runs));
    forall g
      ensures g in gs <==> g in RefGroups(runs)
    {
      assert g in gs <==> g in multiset(gs);
      assert g in RefGroups(runs) <==> g in multiset(RefGroups(runs));
    }
  }
}

=== FILE: diff.dfy ===
/** `comp`: the difference of two databases. Each database is the text of its file;
    an index maps the key at the start of a line (the text before the first space)
    to the byte offset where that line starts. Every indexed line of one database
    is re-read from its offset and is either missing from the other database
    (listed, its size added up), matched (a partner path written to the match
    file) or malformed (skipped). The iteration order of the hash multimap and the
    entry its `find` returns are unspecified by C++, so they are parameters here:
    `order`, a permutation of the index, and `pick`, one entry for every present key. */
module Diff {
  import opened Basics
  import opened Record
  import Order
  import Script

  /** One element of the multimap: a key and the byte offset of its line. */
  datatype Entry = Entry(key: string, pos: nat)

  /** The index of a database text, as the reading loop builds it: from the current
      offset, `getline(.., ' ')` takes the text up to the first space (across line
      ends, or up to the end of the text when there is none), then the rest of the
      line is skipped up to and including the next line end. The key is inserted
      when it is not empty. */
  function Index(text: string): (ix: seq<Entry>)
    ensures forall e :: e in ix ==> e.pos < |text| && |e.key| > 0 && e.key == KeyOf(text[e.pos..])
  {
    IndexAtEntries(text, 0);
    IndexAt(text, 0)
  }

  /** The entries read from offset `p` on; `IndexAtEntries` states where they point. */
  function IndexAt(text: string, p: nat): seq<Entry>
    decreases |text| - p
  {
    if p >= |text| then []
    else
      var key := KeyOf(text[p..]);
      (if |key| > 0 then [Entry(key, p)] else []) + IndexAt(text, p + NextRead(text[p..]))
  }

  /** Every entry read from offset `p` on points at or after `p`, at a line whose key it is. */
  lemma {:induction false} IndexAtEntries(text: string, p: nat)
    ensures forall e :: e in IndexAt(text, p) ==>
      p <= e.pos < |text| && |e.key| > 0 && e.key == KeyOf(text[e.pos..])
    decreases |text| - p
  {
    if p < |text| {
      IndexAtEntries(text, p + NextRead(text[p..]));
    }
  }

  /** How far one turn of the reading loop advances: past the key and its space,
      then past the next line end; to the end of the text when either is missing. */
  function NextRead(rest: string): (skip: nat)
    requires |rest| > 0
    ensures 0 < skip <= |rest|
  {
    var key := KeyOf(rest);
    if |key| == |rest| then |rest|
    else match Find(rest, '\n', |key| + 1)
      case Some(q) => q + 1
      case None => |rest|
  }

  /** `seekg(pos); getline(db, line)`: the text from `pos` up to the next line end. */
  function LineAt(text: string, pos: nat): (line: string)
    ensures pos <= |text| ==> |line| <= |text| - pos && line == text[pos..pos + |line|]
    ensures pos <= |text| && pos + |line| < |text| ==> text[pos + |line|] == '\n'
    ensures '\n' !in line
  {
    if pos >= |text| then ""
    else match Find(text, '\n', pos)
      case Some(q) => text[pos..q]
      case None => text[pos..]
  }

  function Keys(ix: seq<Entry>): set<string>
  {
    set e | e in ix :: e.key
  }

  /** A possible behaviour of `find` on the other database's multimap: exactly its
      keys, each mapped to the offset of some entry with that key. */
  predicate ValidPick(other: string, pick: map<string, nat>)
  {
    pick.Keys == Keys(Index(other))
    && forall k :: k in pick ==> Entry(k, pick[k]) in Index(other)
  }

  /** A possible iteration order of the multimap: every entry once. */
  predicate IsIteration(order: seq<Entry>, text: string)
  {
    multiset(order) == multiset(Index(text))
  }

  /** `&line2.at(line2.find(' ', line2.find(' ') + 1) + 1)`: the text after the
      second space. A missing space makes `find` return npos, and npos + 1 wraps
      to 0, so a line with fewer than two spaces is printed whole; `at` throws
      when the position is the end of the line (`None`). */
  function PartnerText(line: string): (r: Option<string>)
    ensures Split(line).Ok? ==>
      (r.Some? <==> |Split(line).value.path| > 0) && (r.Some? ==> r.value == Split(line).value.path)
    ensures Split(line).Err? ==> (r.Some? <==> |line| > 0) && (r.Some? ==> r.value == line)
  {
    var start := match Find(line, ' ', 0)
      case None => 0
      case Some(p1) => (match Find(line, ' ', p1 + 1) case None => 0 case Some(p2) => p2 + 1);
    if start < |line| then Some(line[start..]) else None
  }

  /** What happens to one entry of the database being compared.
      `Matched` with no partner text: the partner line ended at its second space,
      so `at` threw after the path and the tab had been written (the operands of
      `<<` are evaluated left to right, as C++17 requires). */
  datatype Outcome =
    | Missing(path: string, size: Option<u64>)
    | Matched(path: string, partner: Option<string>)
    | Malformed(error: ParseError)

  /** One turn of the comparison loop: the line is re-read at the entry's offset and
      cut; a line that does not cut is reported and skipped, a key absent from the
      other side makes the path missing, and a present key makes it matched. */
  function Classify(text: string, other: string, pick: map<string, nat>, e: Entry): (o: Outcome)
    ensures o.Malformed? <==> Split(LineAt(text, e.pos)).Err?
    ensures o.Missing? <==> Split(LineAt(text, e.pos)).Ok? && e.key !in pick
    ensures !o.Malformed? ==> o.path == Split(LineAt(text, e.pos)).value.path
    ensures o.Missing? ==> o.size == Stoull(Split(LineAt(text, e.pos)).value.sizeText)
    ensures o.Matched? ==> e.key in pick && o.partner == PartnerText(LineAt(other, pick[e.key]))
  {
    match Split(LineAt(text, e.pos))
    case Err(err) => Malformed(err)
    case Ok(f) =>
      if e.key !in pick then Missing(f.path, Stoull(f.sizeText))
      else Matched(f.path, PartnerText(LineAt(other, pick[e.key])))
  }

  /** The classification of one direction as a function value. */
  function Classifier(text: string, other: string, pick: map<string, nat>): Entry -> Outcome
  {
    e => Classify(text, other, pick, e)
  }

  /** The outcomes of walking the entries in `order`, one per entry. */
  function Walk(cls: Entry -> Outcome, order: seq<Entry>): (outs: seq<Outcome>)
    ensures |outs| == |order|
    ensures forall i :: 0 <= i < |order| ==> outs[i] == cls(order[i])
  {
    if |order| == 0 then [] else [cls(order[0])] + Walk(cls, order[1..])
  }

  function Outcomes(text: string, other: string, pick: map<string, nat>, order: seq<Entry>): seq<Outcome>
  {
    Walk(Classifier(text, other, pick), order)
  }

  /** `missing_files` before sorting. */
  function MissingPaths(outs: seq<Outcome>): seq<string>
  {
    if |outs| == 0 then []
    else (if outs[0].Missing? then [outs[0].path] else []) + MissingPaths(outs[1..])
  }

  /** `mem_sum += stoull(..)` on `unsigned long long`, from the accumulator `acc`;
      a size `stoull` rejects adds nothing. */
  function MemSum(acc: u64, outs: seq<Outcome>): (sum: u64)
    ensures (forall i :: 0 <= i < |outs| ==> !outs[i].Missing?) ==> sum == acc
    decreases |outs|
  {
    if |outs| == 0 then acc
    else
      var next := if outs[0].Missing? && outs[0].size.Some? then Wrap64(acc + outs[0].size.value) else acc;
      MemSum(next, outs[1..])
  }

  /** The exact total of the sizes of the missing entries. */
  function MissingBytes(outs: seq<Outcome>): nat
  {
    if |outs| == 0 then 0
    else (if outs[0].Missing? && outs[0].size.Some? then outs[0].size.value else 0) + MissingBytes(outs[1..])
  }

  /** What one entry writes to the match file. */
  function MatchPiece(o: Outcome): (piece: string)
    ensures piece == "" <==> !o.Matched?
    ensures o.Matched? ==> |o.path| + 1 <= |piece| && piece[..|o.path| + 1] == o.path + "\t"
    ensures o.Matched? && o.partner.None? ==> piece == o.path + "\t"
    ensures o.Matched? && o.partner.Some? ==> piece == o.path + "\t" + o.partner.value + "\n"
  {
    match o
    case Matched(path, partner) =>
      path + "\t" + (match partner case Some(q) => q + "\n" case None => "")
    case _ => ""
  }

  /** The match file: the pieces of the entries in iteration order. */
  function MatchText(outs: seq<Outcome>): string
  {
    if |outs| == 0 then "" else MatchPiece(outs[0]) + MatchText(outs[1..])
  }

  /** The match file is empty exactly when no entry is matched. */
  lemma {:induction false} MatchTextEmpty(outs: seq<Outcome>)
    ensures MatchText(outs) == "" <==> forall i :: 0 <= i < |outs| ==> !outs[i].Matched?
  {
    if |outs| > 0 {
      MatchTextEmpty(outs[1..]);
      assert forall i :: 0 < i < |outs| ==> outs[i] == outs[1..][i - 1];
    }
  }

  /** One entry's match text is its piece. */
  lemma {:induction false} MatchTextOne(o: Outcome)
    ensures MatchText([o]) == MatchPiece(o)
  {
    assert [o][1..] == [];
  }

  /** The match file of two stretches of the walk is the first's text followed by the
      second's: with MatchTextOne, the file is the pieces in walk order. */
  lemma {:induction false} MatchTextAppend(a: seq<Outcome>, b: seq<Outcome>)
    ensures MatchText(a + b) == MatchText(a) + MatchText(b)
    decreases |a|
  {
    if |a| > 0 {
      var ab := a + b;
      MatchTextAppend(a[1..], b);
      assert ab[1..] == a[1..] + b && ab[0] == a[0];
      assert MatchText(ab) == MatchPiece(a[0]) + MatchText(a[1..] + b);
      assert MatchText(a) == MatchPiece(a[0]) + MatchText(a[1..]);
    } else {
      assert a + b == b;
    }
  }

  /** What one direction of `comp` produces: the sorted exclusion list, the number
      of indexed entries, the wrapped size total of the excluded records, the copy
      script and the match file. */
  datatype SideReport = SideReport(only: seq<string>, indexed: nat, memSum: u64, script: seq<string>, matches: string)

  function CompareSide(text: string, other: string, pick: map<string, nat>, order: seq<Entry>): (r: SideReport)
    ensures Order.Sorted(r.only)
    ensures multiset(r.only) == multiset(MissingPaths(Outcomes(text, other, pick, order)))
    ensures r.script == Script.CopyScript(r.only)
    ensures r.matches == MatchText(Outcomes(text, other, pick, order))
  {
    var outs := Outcomes(text, other, pick, order);
    var only := Order.Sort(MissingPaths(outs));
    SideReport(only, |order|, MemSum(0, outs), Script.CopyScript(only), MatchText(outs))
  }

  /** The reported size is the exact total of the missing records' sizes, modulo 2^64. */
  lemma {:induction false} SizeTotalWraps(text: string, other: string, pick: map<string, nat>, order: seq<Entry>)
    ensures CompareSide(text, other, pick, order).memSum
         == Wrap64(MissingBytes(Outcomes(text, other, pick, order)))
  {
    MemSumFromZero(Outcomes(text, other, pick, order));
  }

  lemma {:induction false} MemSumFromZero(outs: seq<Outcome>)
    ensures MemSum(0, outs) == Wrap64(MissingBytes(outs))
  {
    assert Wrap64(0) == 0;
    MemSumWrapsTotal(0, outs);
  }

  /** Both directions: `pickA` is `find` on the first database's multimap (used
      when the second is compared), `pickB` on the second's. */
  function Compare(a: string, b: string, orderA: seq<Entry>, orderB: seq<Entry>,
                   pickA: map<string, nat>, pickB: map<string, nat>): (r: (SideReport, SideReport))
    ensures Order.Sorted(r.0.only) && Order.Sorted(r.1.only)
    ensures multiset(r.0.only) == multiset(MissingPaths(Outcomes(a, b, pickB, orderA)))
    ensures multiset(r.1.only) == multiset(MissingPaths(Outcomes(b, a, pickA, orderB)))
  {
    (CompareSide(a, b, pickB, orderA), CompareSide(b, a, pickA, orderB))
  }

  /** Swapping the two databases swaps the two reports: what is only in the first
      database becomes what is only in the second. */
  lemma {:induction false} CompareSwap(a: string, b: string, orderA: seq<Entry>, orderB: seq<Entry>,
                    pickA: map<string, nat>, pickB: map<string, nat>)
    ensures Compare(b, a, orderB, orderA, pickB, pickA).0 == Compare(a, b, orderA, orderB, pickA, pickB).1
    ensures Compare(b, a, orderB, orderA, pickB, pickA).1 == Compare(a, b, orderA, orderB, pickA, pickB).0
  {
  }

  // ---------------------------------------------------------------------------
  // Properties

  /** Summing into an `unsigned long long` gives the exact total modulo 2^64. */
  lemma {:induction false} MemSumWrapsTotal(acc: int, outs: seq<Outcome>)
    ensures MemSum(Wrap64(acc), outs) == Wrap64(acc + MissingBytes(outs))
    decreases |outs|
  {
    if |outs| > 0 {
      var add := if outs[0].Missing? && outs[0].size.Some? then outs[0].size.value else 0;
      WrapAdd64(acc, add);
      MemSumWrapsTotal(acc + add, outs[1..]);
    }
  }

  /** An entry is listed as missing exactly when its line splits and its key has
      no entry in the other database's index; the listed path is the line's path. */
  lemma {:induction false} ClassifyMissingIff(text: string, other: string, pick: map<string, nat>, e: Entry)
    requires ValidPick(other, pick)
    ensures Classify(text, other, pick, e).Missing? <==>
      Split(LineAt(text, e.pos)).Ok? && e.key !in Keys(Index(other))
    ensures Classify(text, other, pick, e).Missing? ==>
      Classify(text, other, pick, e).path == Split(LineAt(text, e.pos)).value.path
  {
  }

  /** A matched entry's partner text is the path of a line of the other database
      filed under the same key, or that whole line when it has fewer than two spaces. */
  lemma {:induction false} ClassifyMatchedPartner(text: string, other: string, pick: map<string, nat>, e: Entry)
    requires ValidPick(other, pick)
    requires Classify(text, other, pick, e).Matched?
    ensures Split(LineAt(text, e.pos)).Ok? && e.key in Keys(Index(other))
    ensures exists e2 :: (e2 in Index(other) && e2.key == e.key
      && PartnerText(LineAt(other, e2.pos)) == Classify(text, other, pick, e).partner)
  {
    assert Entry(e.key, pick[e.key]) in Index(other);
  }

  lemma {:induction false} MissingPathsAppend(a: seq<Outcome>, b: seq<Outcome>)
    ensures MissingPaths(a + b) == MissingPaths(a) + MissingPaths(b)
    ensures MissingBytes(a + b) == MissingBytes(a) + MissingBytes(b)
  {
    if |a| > 0 {
      assert (a + b)[1..] == a[1..] + b;
      MissingPathsAppend(a[1..], b);
    } else {
      assert a + b == b;
    }
  }

  /** A path is listed exactly when it is the path of a missing outcome. */
  lemma {:induction false} MissingPathsMember(outs: seq<Outcome>, p: string)
    ensures p in MissingPaths(outs) <==> exists i :: 0 <= i < |outs| && outs[i].Missing? && outs[i].path == p
  {
    if |outs| > 0 {
      MissingPathsMember(outs[1..], p);
      if outs[0].Missing? && outs[0].path == p {
        assert p in MissingPaths(outs);
      }
      if exists i :: 0 <= i < |outs| && outs[i].Missing? && outs[i].path == p {
        var i :| 0 <= i < |outs| && outs[i].Missing? && outs[i].path == p;
        if i > 0 {
          assert outs[1..][i - 1] == outs[i];
        }
      }
      if exists i :: 0 <= i < |outs| - 1 && outs[1..][i].Missing? && outs[1..][i].path == p {
        var i :| 0 <= i < |outs| - 1 && outs[1..][i].Missing? && outs[1..][i].path == p;
        assert outs[i + 1] == outs[1..][i];
      }
    }
  }

  lemma {:induction false} WalkAppend(cls: Entry -> Outcome, a: seq<Entry>, b: seq<Entry>)
    ensures Walk(cls, a + b) == Walk(cls, a) + Walk(cls, b)
  {
  }

  /** The missing paths and their total size do not depend on the order in which
      the multimap is walked. */
  lemma {:induction false} MissingIgnoresOrder(cls: Entry -> Outcome, o1: seq<Entry>, o2: seq<Entry>)
    requires multiset(o1) == multiset(o2)
    ensures multiset(MissingPaths(Walk(cls, o1))) == multiset(MissingPaths(Walk(cls, o2)))
    ensures MissingBytes(Walk(cls, o1)) == MissingBytes(Walk(cls, o2))
    decreases |o1|
  {
    if |o1| == 0 {
      assert |o2| == 0;
    } else {
      var i := RemoveFirst(o1, o2);
      var a, b, rest := o2[..i], o2[i + 1..], o1[1..];
      MissingIgnoresOrder(cls, rest, a + b);
      assert o1 == [o1[0]] + rest;
      SplitAt(o2, i);
      MoveStep(cls, o1, o2, a, b, rest);
    }
  }

  /** Moving one entry from between `a` and `b` to the front changes neither
      the missing paths (as a multiset) nor their total size. */
  lemma {:induction false} MoveStep(cls: Entry -> Outcome, o1: seq<Entry>, o2: seq<Entry>, a: seq<Entry>, b: seq<Entry>, rest: seq<Entry>)
    requires |o1| > 0 && o1 == [o1[0]] + rest && o2 == a + [o1[0]] + b
    requires multiset(MissingPaths(Walk(cls, rest))) == multiset(MissingPaths(Walk(cls, a + b)))
    requires MissingBytes(Walk(cls, rest)) == MissingBytes(Walk(cls, a + b))
    ensures multiset(MissingPaths(Walk(cls, o1))) == multiset(MissingPaths(Walk(cls, o2)))
    ensures MissingBytes(Walk(cls, o1)) == MissingBytes(Walk(cls, o2))
  {
    var x := o1[0];
    WalkAppend(cls, [x], rest);
    WalkAround(cls, a, x, b);
    WalkAppend(cls, a, b);
    MissingMoveFront(Walk(cls, a), Walk(cls, [x]), Walk(cls, b), Walk(cls, rest));
  }

  lemma {:induction false} WalkAround(cls: Entry -> Outcome, a: seq<Entry>, x: Entry, b: seq<Entry>)
    ensures Walk(cls, a + [x] + b) == Walk(cls, a) + Walk(cls, [x]) + Walk(cls, b)
  {
    WalkAppend(cls, a + [x], b);
    WalkAppend(cls, a, [x]);
  }

  lemma {:induction false} SplitAt<T>(s: seq<T>, i: nat)
    requires i < |s|
    ensures s == s[..i] + [s[i]] + s[i + 1..]
  {
  }

  /** The position of `o1`'s first element in its permutation `o2`, and what is left. */
  lemma {:induction false} RemoveFirst(o1: seq<Entry>, o2: seq<Entry>) returns (i: nat)
    requires multiset(o1) == multiset(o2) && |o1| > 0
    ensures i < |o2| && o2[i] == o1[0]
    ensures multiset(o1[1..]) == multiset(o2[..i] + o2[i + 1..])
  {
    assert o1[0] in multiset(o2);
    i :| 0 <= i < |o2| && o2[i] == o1[0];
    var tail, rest := o1[1..], o2[..i] + o2[i + 1..];
    MultisetWithout(o2, i);
    assert o1 == [o1[0]] + tail;
    assert multiset(o1) == multiset(tail) + multiset{o1[0]};
    MultisetCancel(multiset(tail), multiset(rest), o1[0]);
  }

  lemma {:induction false} MultisetWithout<T>(s: seq<T>, i: nat)
    requires i < |s|
    ensures multiset(s) == multiset(s[..i] + s[i + 1..]) + multiset{s[i]}
  {
    SplitAt(s, i);
  }

  lemma {:induction false} MultisetCancel<T>(a: multiset<T>, b: multiset<T>, x: T)
    requires a + multiset{x} == b + multiset{x}
    ensures a == b
  {
    forall y
      ensures a[y] == b[y]
    {
      assert (a + multiset{x})[y] == (b + multiset{x})[y];
    }
  }

  lemma {:induction false} MissingMoveFront(a: seq<Outcome>, x: seq<Outcome>, b: seq<Outcome>, r: seq<Outcome>)
    requires multiset(MissingPaths(r)) == multiset(MissingPaths(a + b))
    requires MissingBytes(r) == MissingBytes(a + b)
    ensures multiset(MissingPaths(x + r)) == multiset(MissingPaths(a + x + b))
    ensures MissingBytes(x + r) == MissingBytes(a + x + b)
  {
    MissingPathsAppend(x, r);
    MissingPathsAppend(a + x, b);
    MissingPathsAppend(a, x);
    MissingPathsAppend(a, b);
  }

  /** Outcome sequences that agree on which entries are missing, and on those
      entries, list the same paths and add up the same sizes. */
  lemma {:induction false} MissingAgree(outs1: seq<Outcome>, outs2: seq<Outcome>)
    requires |outs1| == |outs2|
    requires forall i :: 0 <= i < |outs1| ==>
      outs1[i].Missing? == outs2[i].Missing? && (outs1[i].Missing? ==> outs1[i] == outs2[i])
    ensures MissingPaths(outs1) == MissingPaths(outs2)
    ensures MissingBytes(outs1) == MissingBytes(outs2)
  {
    if |outs1| > 0 {
      MissingAgree(outs1[1..], outs2[1..]);
    }
  }

  /** Which entries are missing does not depend on which entry `find` returns. */
  lemma {:induction false} ClassifyMissingIgnoresPick(text: string, other: string,
                                   pick1: map<string, nat>, pick2: map<string, nat>, e: Entry)
    requires pick1.Keys == pick2.Keys
    ensures Classify(text, other, pick1, e).Missing? == Classify(text, other, pick2, e).Missing?
    ensures Classify(text, other, pick1, e).Missing? ==>
      Classify(text, other, pick1, e) == Classify(text, other, pick2, e)
  {
  }

  /** The exclusion list and the size total are the same for every iteration order
      of the multimap and every choice `find` makes. */
  lemma {:induction false} ExclusionListDeterministic(text: string, other: string,
                                   pick1: map<string, nat>, pick2: map<string, nat>,
                                   o1: seq<Entry>, o2: seq<Entry>)
    requires ValidPick(other, pick1) && ValidPick(other, pick2)
    requires IsIteration(o1, text) && IsIteration(o2, text)
    ensures CompareSide(text, other, pick1, o1).only == CompareSide(text, other, pick2, o2).only
    ensures CompareSide(text, other, pick1, o1).memSum == CompareSide(text, other, pick2, o2).memSum
  {
    var c1, c2 := Classifier(text, other, pick1), Classifier(text, other, pick2);
    MissingIgnoresOrder(c1, o1, o2);
    var w1, w2 := Walk(c1, o2), Walk(c2, o2);
    forall i | 0 <= i < |o2|
      ensures w1[i].Missing? == w2[i].Missing? && (w1[i].Missing? ==> w1[i] == w2[i])
    {
      ClassifyMissingIgnoresPick(text, other, pick1, pick2, o2[i]);
    }
    MissingAgree(w1, w2);
    Order.SortedUnique(CompareSide(text, other, pick1, o1).only, CompareSide(text, other, pick2, o2).only);
    SizeTotalWraps(text, other, pick1, o1);
    SizeTotalWraps(text, other, pick2, o2);
  }

  /** An indexed line of `text` with path `p` that splits and whose key the other
      index lacks. */
  predicate MissingLine(text: string, other: string, e: Entry, p: string)
  {
    e in Index(text) && Split(LineAt(text, e.pos)).Ok?
    && Split(LineAt(text, e.pos)).value.path == p && e.key !in Keys(Index(other))
  }

  /** A path is in the exclusion list exactly when some indexed line of this
      database has that path, splits, and its key is absent from the other index. */
  lemma {:induction false} ExclusionListMembers(text: string, other: string, pick: map<string, nat>, order: seq<Entry>, p: string)
    requires ValidPick(other, pick) && IsIteration(order, text)
    ensures p in CompareSide(text, other, pick, order).only <==> exists e :: MissingLine(text, other, e, p)
  {
    if p in CompareSide(text, other, pick, order).only {
      ListedHasLine(text, other, pick, order, p);
    }
    if exists e :: MissingLine(text, other, e, p) {
      var e :| MissingLine(text, other, e, p);
      LineIsListed(text, other, pick, order, e, p);
    }
  }

  lemma {:induction false} ListedHasLine(text: string, other: string, pick: map<string, nat>, order: seq<Entry>, p: string)
    requires ValidPick(other, pick) && IsIteration(order, text)
    requires p in CompareSide(text, other, pick, order).only
    ensures exists e :: MissingLine(text, other, e, p)
  {
    var outs := Outcomes(text, other, pick, order);
    var only := CompareSide(text, other, pick, order).only;
    assert p in multiset(only);
    assert p in MissingPaths(outs);
    MissingPathsMember(outs, p);
    var i :| 0 <= i < |outs| && outs[i].Missing? && outs[i].path == p;
    ClassifyMissingIff(text, other, pick, order[i]);
    assert order[i] in multiset(Index(text));
    assert MissingLine(text, other, order[i], p);
  }

  lemma {:induction false} LineIsListed(text: string, other: string, pick: map<string, nat>, order: seq<Entry>, e: Entry, p: string)
    requires ValidPick(other, pick) && IsIteration(order, text)
    requires MissingLine(text, other, e, p)
    ensures p in CompareSide(text, other, pick, order).only
  {
    var outs := Outcomes(text, other, pick, order);
    var only := CompareSide(text, other, pick, order).only;
    assert e in multiset(order);
    var i :| 0 <= i < |order| && order[i] == e;
    ClassifyMissingIff(text, other, pick, e);
    assert outs[i].Missing? && outs[i].path == p;
    MissingPathsMember(outs, p);
    assert p in multiset(MissingPaths(outs));
    assert p in multiset(only);
  }

  lemma {:induction false} NothingMissing(outs: seq<Outcome>)
    requires forall i :: 0 <= i < |outs| ==> !outs[i].Missing?
    ensures MissingPaths(outs) == [] && MissingBytes(outs) == 0
  {
    if |outs| > 0 {
      NothingMissing(outs[1..]);
    }
  }

  /** A database compared with itself excludes nothing and adds up no size. */
  lemma {:induction false} SelfCompareExcludesNothing(text: string, pick: map<string, nat>, order: seq<Entry>)
    requires ValidPick(text, pick) && IsIteration(order, text)
    ensures CompareSide(text, text, pick, order).only == []
    ensures CompareSide(text, text, pick, order).memSum == 0
  {
    var outs := Outcomes(text, text, pick, order);
    forall i | 0 <= i < |outs|
      ensures !outs[i].Missing?
    {
      var e := order[i];
      assert e in multiset(Index(text));
      assert e.key in Keys(Index(text));
      ClassifyMissingIff(text, text, pick, e);
    }
    NothingMissing(outs);
    SizeTotalWraps(text, text, pick, order);
    assert multiset(CompareSide(text, text, pick, order).only) == multiset{};
  }

  /** Every line the index points at can be split and has a non-empty path. */
  predicate WellFormed(text: string)
  {
    forall e :: e in Index(text) ==>
      Split(LineAt(text, e.pos)).Ok? && |Split(LineAt(text, e.pos)).value.path| > 0
  }

  /** A well-formed database compared with itself matches every entry, each to the
      path of a line filed under the same key. */
  lemma {:induction false} SelfCompareMatchesAll(text: string, pick: map<string, nat>, order: seq<Entry>, i: nat)
    requires ValidPick(text, pick) && IsIteration(order, text) && WellFormed(text)
    requires i < |order|
    ensures Outcomes(text, text, pick, order)[i].Matched?
    ensures Outcomes(text, text, pick, order)[i].partner.Some?
  {
    var e := order[i];
    assert e in multiset(Index(text));
    assert e.key in Keys(Index(text));
    assert Entry(e.key, pick[e.key]) in Index(text);
  }

  // ---------------------------------------------------------------------------
  // Databases as written by `mp3hash`

  /** The text of a database: every line followed by a line end. */
  function Text(lines: seq<string>): string
  {
    if |lines| == 0 then "" else lines[0] + "\n" + Text(lines[1..])
  }

  /** The entries a line-by-line reading would give: for each line its key (when
      not empty) and its starting offset. */
  function LineEntries(lines: seq<string>, base: nat): seq<Entry>
  {
    if |lines| == 0 then []
    else
      var key := KeyOf(lines[0]);
      (if |key| > 0 then [Entry(key, base)] else []) + LineEntries(lines[1..], base + |lines[0]| + 1)
  }

  /** When every line holds a space and no line end, as every line `mp3hash` writes
      does, the index has one entry per line, keyed by the text before its first space. */
  lemma {:induction false} IndexOfLines(lines: seq<string>)
    requires forall i :: 0 <= i < |lines| ==> ' ' in lines[i] && '\n' !in lines[i]
    ensures Index(Text(lines)) == LineEntries(lines, 0)
  {
    IndexAfter("", lines);
  }

  lemma {:induction false} IndexAfter(pre: string, lines: seq<string>)
    requires forall i :: 0 <= i < |lines| ==> ' ' in lines[i] && '\n' !in lines[i]
    ensures IndexAt(pre + Text(lines), |pre|) == LineEntries(lines, |pre|)
    decreases |lines|
  {
    var text := pre + Text(lines);
    if |lines| == 0 {
      assert text == pre;
    } else {
      var line, more := lines[0], Text(lines[1..]);
      var pre' := pre + line + "\n";
      assert Text(lines) == line + "\n" + more;
      assert text == pre' + more;
      assert text[|pre|..] == line + "\n" + more;
      var head := if |KeyOf(line)| > 0 then [Entry(KeyOf(line), |pre|)] else [];
      assert LineEntries(lines, |pre|) == head + LineEntries(lines[1..], |pre'|);
      IndexStep(text, |pre|, line, more, |pre'|);
      IndexAfter(pre', lines[1..]);
      assert IndexAt(text, |pre'|) == LineEntries(lines[1..], |pre'|);
    }
  }

  /** Reading a line that holds a space files it under its key and continues at
      the start of the next line. */
  lemma {:induction false} IndexStep(text: string, p: nat, line: string, more: string, next: nat)
    requires ' ' in line && '\n' !in line
    requires p <= |text| && text[p..] == line + "\n" + more && next == p + |line| + 1
    ensures IndexAt(text, p) ==
      (if |KeyOf(line)| > 0 then [Entry(KeyOf(line), p)] else []) + IndexAt(text, next)
  {
    var rest := text[p..];
    assert |rest| == |line| + 1 + |more|;
    ReadLine(rest, line, more);
  }

  /** One turn of the reading loop on a line holding a space: the key is the line's
      key and the read moves to the start of the next line. */
  lemma {:induction false} ReadLine(rest: string, line: string, more: string)
    requires ' ' in line && '\n' !in line && rest == line + "\n" + more
    ensures KeyOf(rest) == KeyOf(line)
    ensures NextRead(rest) == |line| + 1
  {
    var k := KeyOf(line);
    SpaceAtKey(line);
    KeyOfIs(rest, k);
    FindLineEnd(line, more, |k| + 1);
  }

  /** A line holding a space has a key shorter than the line. */
  lemma {:induction false} SpaceAtKey(line: string)
    requires ' ' in line
    ensures |KeyOf(line)| < |line|
  {
    var i :| 0 <= i < |line| && line[i] == ' ';
    assert Find(line, ' ', 0).Some?;
  }

  /** A space-free head followed by a space is the key. */
  lemma {:induction false} KeyOfIs(s: string, k: string)
    requires ' ' !in k && |k| < |s| && k == s[..|k|] && s[|k|] == ' '
    ensures KeyOf(s) == k
  {
    forall j | 0 <= j < |k|
      ensures s[j] != ' '
    {
      assert s[j] == k[j];
    }
    FindIs(s, ' ', 0, |k|);
  }

  lemma {:induction false} FindLineEnd(line: string, more: string, from: nat)
    requires '\n' !in line && from <= |line|
    ensures Find(line + "\n" + more, '\n', from) == Some(|line|)
  {
    var s := line + "\n" + more;
    forall j | from <= j < |line|
      ensures s[j] != '\n'
    {
      assert s[j] == line[j];
    }
    FindIs(s, '\n', from, |line|);
  }

  /** A line without a space hides the line after it: the key read runs on to the
      next space, and the rest of that second line is skipped. */
  lemma {:induction false} SpacelessLineHidesNext()
    ensures Index("abc\nh2 5 /x\n") == [Entry("abc\nh2", 0)]
  {
    var t := "abc\nh2 5 /x\n";
    assert t[0..] == t;
    assert t[..6] == "abc\nh2" && t[6] == ' ';
    KeyOfIs(t, "abc\nh2");
    FindIs(t, '\n', 7, 11);
  }
}

=== FILE: hex.dfy ===
/** The rendering of the 64-byte digest as text in `mp3hash`: every byte becomes
    two characters of the table "0123456789abcdef", high nibble first. */
module Hex {
  import opened Basics

  const Digits: string := "0123456789abcdef"

  /** A character of the table: a decimal digit or one of the six lower-case letters a-f. */
  predicate IsDigit(c: char)
  {
    '0' <= c <= '9' || 'a' <= c <= 'f'
  }

  /** The position of a character in the table, if it is there. */
  function DigitValue(c: char): (r: Option<nat>)
    ensures r.Some? ==> r.value < 16 && Digits[r.value] == c
  {
    if '0' <= c <= '9' then Some(c as int - '0' as int)
    else if 'a' <= c <= 'f' then Some(c as int - 'a' as int + 10)
    else None
  }

  /** Exactly the table characters have a value. */
  lemma {:induction false} DigitValueDefined(c: char)
    ensures DigitValue(c).Some? <==> IsDigit(c)
  {
  }

  lemma {:induction false} DigitValueOfDigit(d: nat)
    requires d < 16
    ensures DigitValue(Digits[d]) == Some(d)
  {
  }

  /** The text of a byte sequence, two table characters per byte. */
  function Encode(bs: seq<byte>): (s: string)
    ensures |s| == 2 * |bs|
  {
    if |bs| == 0 then [] else [Digits[bs[0] / 16], Digits[bs[0] % 16]] + Encode(bs[1..])
  }

  /** The text consists of table characters only (lower-case hexadecimal). */
  lemma {:induction false} EncodeAlphabet(bs: seq<byte>)
    ensures forall k :: 0 <= k < |Encode(bs)| ==> IsDigit(Encode(bs)[k])
  {
    if |bs| != 0 {
      EncodeAlphabet(bs[1..]);
      var s := Encode(bs);
      forall k | 0 <= k < |s|
        ensures IsDigit(s[k])
      {
        if k >= 2 {
          assert s[k] == Encode(bs[1..])[k - 2];
        }
      }
    }
  }

  lemma {:induction false} EncodeCons(b: byte, rest: seq<byte>)
    ensures Encode([b] + rest) == [Digits[b / 16], Digits[b % 16]] + Encode(rest)
  {
    assert ([b] + rest)[1..] == rest;
  }

  /** Byte i of the digest becomes the characters at positions 2i and 2i+1,
      the high nibble first. */
  lemma {:induction false} EncodePositions(bs: seq<byte>, i: nat)
    requires i < |bs|
    ensures Encode(bs)[2 * i] == Digits[bs[i] / 16]
    ensures Encode(bs)[2 * i + 1] == Digits[bs[i] % 16]
  {
    if i > 0 {
      EncodePositions(bs[1..], i - 1);
    }
  }

  /** The byte with the given high and low nibbles. */
  function Join(hi: nat, lo: nat): (b: byte)
    requires hi < 16 && lo < 16
    ensures b / 16 == hi && b % 16 == lo
  {
    Nibbles(hi, lo);
    16 * hi + lo
  }

  /** A byte is its two nibbles: high times 16 plus low. */
  lemma {:induction false} Nibbles(hi: nat, lo: nat)
    requires hi < 16 && lo < 16
    ensures 16 * hi + lo < 256
    ensures (16 * hi + lo) / 16 == hi && (16 * hi + lo) % 16 == lo
  {
  }

  /** Reads the text back; `None` for odd length or a character outside the table. */
  function Decode(s: string): Option<seq<byte>>
    decreases |s|
  {
    if |s| < 2 then (if |s| == 0 then Some([]) else None)
    else
      var hi := DigitValue(s[0]);
      var lo := DigitValue(s[1]);
      var rest := Decode(s[2..]);
      if hi.None? || lo.None? || rest.None? then None
      else Some([Join(hi.value, lo.value)] + rest.value)
  }

  /** Whatever decodes, encodes back to the text it came from. */
  lemma {:induction false} EncodeDecode(s: string)
    ensures Decode(s).Some? ==> Encode(Decode(s).value) == s
    decreases |s|
  {
    if |s| >= 2 && Decode(s).Some? {
      var hi, lo := DigitValue(s[0]).value, DigitValue(s[1]).value;
      var rest := Decode(s[2..]).value;
      EncodeDecode(s[2..]);
      var b := Join(hi, lo);
      assert Decode(s).value == [b] + rest;
      EncodeCons(b, rest);
      assert s == [s[0], s[1]] + s[2..];
    }
  }

  /** Every encoded byte sequence decodes to itself. */
  lemma {:induction false} DecodeEncode(bs: seq<byte>)
    ensures Decode(Encode(bs)) == Some(bs)
  {
    if |bs| != 0 {
      var s := Encode(bs);
      DecodeEncode(bs[1..]);
      assert s[2..] == Encode(bs[1..]);
      var hi, lo := bs[0] / 16, bs[0] % 16;
      DigitValueOfDigit(hi);
      DigitValueOfDigit(lo);
      assert Join(hi, lo) == bs[0];
      assert s[0] == Digits[hi] && s[1] == Digits[lo];
      assert bs == [bs[0]] + bs[1..];
    }
  }

  /** Distinct digests never render to the same text. */
  lemma {:induction false} EncodeInjective(a: seq<byte>, b: seq<byte>)
    requires Encode(a) == Encode(b)
    ensures a == b
  {
    DecodeEncode(a);
    DecodeEncode(b);
  }
}

=== FILE: order.dfy ===
/** The ordering `std::string::operator<` imposes (character by character, a proper
    prefix first) and the sort both `comp` and `lsdup` apply to their lines.
    `std::sort` is not stable, but on strings that does not matter: two sorted
    permutations of the same lines are equal (`SortedUnique`), so the one insertion
    sort below stands for every possible outcome of the library's sort. */
module Order {

  /** `a <= b` in the order of std::string. */
  predicate LexLe(a: string, b: string)
    decreases |a|
  {
    |a| == 0 || (|b| != 0 && (a[0] < b[0] || (a[0] == b[0] && LexLe(a[1..], b[1..]))))
  }

  /** The order read off positions: `a` is a prefix of `b`, or the two agree up to a
      position where `a` has the smaller character. */
  lemma {:induction false} LexLeMeaning(a: string, b: string)
    ensures LexLe(a, b) <==>
      (|a| <= |b| && a == b[..|a|])
      || (exists k :: 0 <= k < |a| && k < |b| && a[..k] == b[..k] && a[k] < b[k])
    decreases |a|
  {
    if |a| != 0 && |b| != 0 {
      LexLeMeaning(a[1..], b[1..]);
      if a[0] == b[0] {
        if exists k :: 0 <= k < |a[1..]| && k < |b[1..]| && a[1..][..k] == b[1..][..k] && a[1..][k] < b[1..][k] {
          var k :| 0 <= k < |a[1..]| && k < |b[1..]| && a[1..][..k] == b[1..][..k] && a[1..][k] < b[1..][k];
          assert a[..k + 1] == [a[0]] + a[1..][..k];
          assert b[..k + 1] == [b[0]] + b[1..][..k];
        }
        if exists k :: 0 <= k < |a| && k < |b| && a[..k] == b[..k] && a[k] < b[k] {
          var k :| 0 <= k < |a| && k < |b| && a[..k] == b[..k] && a[k] < b[k];
          assert k > 0;
          assert a[1..][..k - 1] == a[..k][1..] == b[..k][1..] == b[1..][..k - 1];
        }
        if |a| <= |b| && a == b[..|a|] {
          assert a[1..] == b[1..][..|a| - 1];
        }
        if |a[1..]| <= |b[1..]| && a[1..] == b[1..][..|a[1..]|] {
          assert a == [a[0]] + a[1..] && b[..|a|] == [b[0]] + b[1..][..|a| - 1];
        }
      } else {
        if a[0] < b[0] {
          assert a[..0] == b[..0];
        }
        assert |a| <= |b| ==> b[..|a|][0] == b[0];
        if exists k :: 0 <= k < |a| && k < |b| && a[..k] == b[..k] && a[k] < b[k] {
          var k :| 0 <= k < |a| && k < |b| && a[..k] == b[..k] && a[k] < b[k];
          SharedPrefixHead(a, b, k);
        }
      }
    }
  }

  lemma {:induction false} SharedPrefixHead(a: string, b: string, k: nat)
    requires k <= |a| && k <= |b|
    ensures a[..k] == b[..k] && k > 0 ==> a[0] == b[0]
  {
    if a[..k] == b[..k] && k > 0 {
      assert a[0] == a[..k][0];
    }
  }

  lemma {:induction false} LexLeReflexive(a: string)
    ensures LexLe(a, a)
    decreases |a|
  {
    if |a| != 0 {
      LexLeReflexive(a[1..]);
    }
  }

  lemma {:induction false} LexLeTotal(a: string, b: string)
    ensures LexLe(a, b) || LexLe(b, a)
    decreases |a|
  {
    if |a| != 0 && |b| != 0 && a[0] == b[0] {
      LexLeTotal(a[1..], b[1..]);
    }
  }

  lemma {:induction false} LexLeTransitive(a: string, b: string, c: string)
    requires LexLe(a, b) && LexLe(b, c)
    ensures LexLe(a, c)
    decreases |a|
  {
    if |a| != 0 && a[0] == b[0] && b[0] == c[0] {
      LexLeTransitive(a[1..], b[1..], c[1..]);
    }
  }

  lemma {:induction false} LexLeAntisymmetric(a: string, b: string)
    requires LexLe(a, b) && LexLe(b, a)
    ensures a == b
    decreases |a|
  {
    if |a| != 0 {
      LexLeAntisymmetric(a[1..], b[1..]);
      assert a == [a[0]] + a[1..] && b == [b[0]] + b[1..];
    }
  }

  /** Two strings that share a prefix `p` enclose only strings with that prefix:
      the lines that begin with one fingerprint form one block of a sorted file. */
  lemma {:induction false} LexBetweenSharesPrefix(p: string, a: string, b: string, c: string)
    requires LexLe(a, b) && LexLe(b, c)
    requires |p| <= |a| && a[..|p|] == p
    requires |p| <= |c| && c[..|p|] == p
    ensures |p| <= |b| && b[..|p|] == p
    decreases |p|
  {
    if |p| != 0 {
      assert a[0] == p[0] && c[0] == p[0];
      assert b[0] == p[0];
      LexBetweenSharesPrefix(p[1..], a[1..], b[1..], c[1..]);
      assert b[..|p|] == [b[0]] + b[1..][..|p| - 1];
    }
  }

  predicate Sorted(s: seq<string>)
  {
    forall i, j :: 0 <= i < j < |s| ==> LexLe(s[i], s[j])
  }

  /** A sequence that is sorted and headed by a lower bound of its tail is sorted. */
  lemma {:induction false} SortedCons(y: string, t: seq<string>)
    requires Sorted(t)
    requires forall j :: 0 <= j < |t| ==> LexLe(y, t[j])
    ensures Sorted([y] + t)
  {
    var s := [y] + t;
    forall i, j | 0 <= i < j < |s|
      ensures LexLe(s[i], s[j])
    {
      if i > 0 {
        assert s[i] == t[i - 1] && s[j] == t[j - 1];
      }
    }
  }

  /** Places `x` into a sorted sequence. */
  function Insert(x: string, s: seq<string>): (r: seq<string>)
    requires Sorted(s)
    ensures Sorted(r)
    ensures multiset(r) == multiset(s) + multiset{x}
  {
    if |s| == 0 then [x]
    else if LexLe(x, s[0]) then
      InsertHead(x, s);
      [x] + s
    else
      var rest := Insert(x, s[1..]);
      InsertBelow(x, s, rest);
      [s[0]] + rest
  }

  lemma {:induction false} InsertHead(x: string, s: seq<string>)
    requires Sorted(s) && |s| > 0 && LexLe(x, s[0])
    ensures Sorted([x] + s)
    ensures multiset([x] + s) == multiset(s) + multiset{x}
  {
    forall j | 0 <= j < |s|
      ensures LexLe(x, s[j])
    {
      if j > 0 { LexLeTransitive(x, s[0], s[j]); }
    }
    SortedCons(x, s);
  }

  lemma {:induction false} InsertBelow(x: string, s: seq<string>, rest: seq<string>)
    requires Sorted(s) && |s| > 0 && !LexLe(x, s[0])
    requires Sorted(rest) && multiset(rest) == multiset(s[1..]) + multiset{x}
    ensures Sorted([s[0]] + rest)
    ensures multiset([s[0]] + rest) == multiset(s) + multiset{x}
  {
    LexLeTotal(x, s[0]);
    forall j | 0 <= j < |rest|
      ensures LexLe(s[0], rest[j])
    {
      assert rest[j] in multiset(rest);
      if rest[j] != x {
        assert rest[j] in multiset(s[1..]);
        var k :| 0 <= k < |s[1..]| && s[1..][k] == rest[j];
        assert s[k + 1] == rest[j];
      }
    }
    SortedCons(s[0], rest);
    assert s == [s[0]] + s[1..];
  }

  /** The lines in ascending order; a permutation of the input. */
  function Sort(s: seq<string>): (r: seq<string>)
    ensures Sorted(r)
    ensures multiset(r) == multiset(s)
  {
    if |s| == 0 then []
    else
      assert s == [s[0]] + s[1..];
      Insert(s[0], Sort(s[1..]))
  }

  /** Any two ascending permutations of the same lines are the same sequence. */
  lemma {:induction false} SortedUnique(a: seq<string>, b: seq<string>)
    requires Sorted(a) && Sorted(b)
    requires multiset(a) == multiset(b)
    ensures a == b
    decreases |a|
  {
    if |a| == 0 {
      assert |b| == |multiset(b)| == 0;
    } else {
      SortedHeads(a, b);
      SortedTail(a);
      SortedTail(b);
      SortedUnique(a[1..], b[1..]);
      assert a == [a[0]] + a[1..] && b == [b[0]] + b[1..];
    }
  }

  lemma {:induction false} SortedTail(a: seq<string>)
    requires Sorted(a) && |a| > 0
    ensures Sorted(a[1..])
  {
  }

  /** Two ascending permutations of the same lines start with the same line. */
  lemma {:induction false} SortedHeads(a: seq<string>, b: seq<string>)
    requires Sorted(a) && Sorted(b) && multiset(a) == multiset(b) && |a| > 0
    ensures |b| > 0 && a[0] == b[0] && multiset(a[1..]) == multiset(b[1..])
  {
    assert |b| == |multiset(b)| == |multiset(a)| == |a|;
    assert a[0] in multiset(b);
    var i :| 0 <= i < |b| && b[i] == a[0];
    assert b[0] in multiset(a);
    var j :| 0 <= j < |a| && a[j] == b[0];
    assert LexLe(b[0], a[0]) by {
      if i > 0 { } else { LexLeReflexive(b[0]); }
    }
    assert LexLe(a[0], b[0]) by {
      if j > 0 { } else { LexLeReflexive(a[0]); }
    }
    LexLeAntisymmetric(a[0], b[0]);
    assert a == [a[0]] + a[1..] && b == [b[0]] + b[1..];
    assert multiset(a[1..]) == multiset(a) - multiset{a[0]};
    assert multiset(b[1..]) == multiset(b) - multiset{b[0]};
  }

  /** Sorting forgets the order the lines were read in. */
  lemma {:induction false} SortIgnoresInputOrder(a: seq<string>, b: seq<string>)
    requires multiset(a) == multiset(b)
    ensures Sort(a) == Sort(b)
  {
    SortedUnique(Sort(a), Sort(b));
  }
}

=== FILE: record.dfy ===
/** One database line, `<fingerprint> <size> <path>`: how `mp3hash` writes it and
    how `comp` and `lsdup` take it apart again, including the number conversion
    `std::stoull` that reads the size field. */
module Record {
  import opened Basics
  import Sampling
  import Hex

  /** Every line break in a path becomes a space, so that a record stays on one line. */
  function Sanitize(path: string): (r: string)
    ensures |r| == |path|
    ensures '\n' !in r
    ensures forall i :: 0 <= i < |path| && path[i] != '\n' ==> r[i] == path[i]
    ensures forall i :: 0 <= i < |path| && path[i] == '\n' ==> r[i] == ' '
  {
    if |path| == 0 then []
    else [if path[0] == '\n' then ' ' else path[0]] + Sanitize(path[1..])
  }

  /** A path without line breaks is written unchanged, so the two output branches of
      `mp3hash` (with and without the replacement) agree. */
  lemma {:induction false} SanitizeIdentity(path: string)
    requires '\n' !in path
    ensures Sanitize(path) == path
  {
  }

  predicate IsDigit(c: char)
  {
    '0' <= c <= '9'
  }

  predicate AllDigits(s: string)
  {
    forall k :: 0 <= k < |s| ==> IsDigit(s[k])
  }

  function DigitChar(d: nat): (c: char)
    requires d < 10
    ensures IsDigit(c)
  {
    ('0' as int + d) as char
  }

  /** `operator<<` of an unsigned number: decimal digits, no leading zero. */
  function Decimal(n: nat): (s: string)
    ensures |s| > 0 && AllDigits(s)
    ensures |s| > 1 ==> s[0] != '0'
    decreases n
  {
    if n < 10 then [DigitChar(n)] else Decimal(n / 10) + [DigitChar(n % 10)]
  }

  /** The number a string of digits denotes. */
  function DigitsValue(s: string): nat
    requires AllDigits(s)
  {
    if |s| == 0 then 0
    else DigitsValue(s[..|s| - 1]) * 10 + (s[|s| - 1] as int - '0' as int)
  }

  lemma {:induction false} DecimalValue(n: nat)
    ensures DigitsValue(Decimal(n)) == n
    decreases n
  {
    if n >= 10 {
      DecimalValue(n / 10);
      var s := Decimal(n);
      assert s[..|s| - 1] == Decimal(n / 10);
    }
  }

  /** The record line (without its terminating line break). */
  function FormatLine(fingerprint: string, size: u32, path: string): (line: string)
    ensures '\n' !in fingerprint ==> '\n' !in line
  {
    fingerprint + " " + Decimal(size) + " " + Sanitize(path)
  }

  /** A fingerprint holds neither a space nor a line break, so it is one field of a line. */
  lemma {:induction false} FingerprintPlain(fp: string)
    requires Sampling.IsFingerprint(fp)
    ensures ' ' !in fp && '\n' !in fp
  {
    forall k | 0 <= k < |fp|
      ensures fp[k] != ' ' && fp[k] != '\n'
    {
      if k < 3 {
        assert fp[k] == fp[..3][k];
      } else {
        assert Hex.IsDigit(fp[k]);
      }
    }
  }

  /** The database line for the file at `path` with bytes `content`, built from the
      corrected fingerprint: it is the line `mp3hash` writes except for a file in the
      `0F-` tier that ends in an ID3v1 block (see `Sampling.TaggedSmallFileUnreadable`). */
  function RecordLine(path: string, content: seq<byte>, sha: seq<byte> -> Sampling.Digest): (line: string)
    ensures '\n' !in line
  {
    var fp := Sampling.Fingerprint(content, sha);
    FingerprintPlain(fp);
    FormatLine(fp, Sampling.FileSize(content), path)
  }

  datatype ParseError = NoSpace | NoSecondSpace | EmptyPath | BadSize

  /** The pieces of a line cut at its first space and at the next space after it.
      `field` is the text between the two spaces; `sizeText` is what the program
      hands to `stoull`: `line.substr(pos + 1, pos2)`, whose second argument is a
      character count, so the text runs on past the second space. */
  datatype Fields = Fields(hash: string, field: string, sizeText: string, path: string)

  /** The cut both `comp` and `lsdup` perform: `NoSpace` and `NoSecondSpace` are the
      two `invalid_argument` exceptions the program throws. */
  function Split(line: string): (r: Result<Fields, ParseError>)
    ensures r.Ok? ==> line == r.value.hash + " " + r.value.field + " " + r.value.path
    ensures r.Err? ==> r.error in {NoSpace, NoSecondSpace}
  {
    match Find(line, ' ', 0)
    case None => Err(NoSpace)
    case Some(pos) =>
      match Find(line, ' ', pos + 1)
      case None => Err(NoSecondSpace)
      case Some(pos2) =>
        var end := if pos + 1 + pos2 <= |line| then pos + 1 + pos2 else |line|;
        assert line == line[..pos] + " " + line[pos + 1..pos2] + " " + line[pos2 + 1..];
        Ok(Fields(line[..pos], line[pos + 1..pos2], line[pos + 1..end], line[pos2 + 1..]))
  }

  /** Exactly the lines without any space are refused with `NoSpace`. */
  lemma {:induction false} SplitNoSpace(line: string)
    ensures Split(line) == Err(NoSpace) <==> ' ' !in line
  {
    if ' ' in line {
      var k :| 0 <= k < |line| && line[k] == ' ';
      assert Find(line, ' ', 0).Some?;
    }
  }

  /** `sizeText` opens with the field and the space that ends it. */
  predicate SizeTextStartsWithField(f: Fields)
  {
    |f.field| + 1 <= |f.sizeText| && f.sizeText[..|f.field| + 1] == f.field + " "
  }

  /** The two cut points are the first two spaces: the hash and the field are
      space-free, and the text `stoull` sees begins with the field and the second space. */
  lemma {:induction false} SplitFields(line: string)
    requires Split(line).Ok?
    ensures ' ' !in Split(line).value.hash && ' ' !in Split(line).value.field
    ensures SizeTextStartsWithField(Split(line).value)
  {
    var pos := Find(line, ' ', 0).value;
    var pos2 := Find(line, ' ', pos + 1).value;
    var end := if pos + 1 + pos2 <= |line| then pos + 1 + pos2 else |line|;
    assert Split(line).value == Fields(line[..pos], line[pos + 1..pos2], line[pos + 1..end], line[pos2 + 1..]);
    CutFields(line, pos, pos2, end);
  }

  /** The fields of a line cut at `pos` and `pos2`, the first two spaces. */
  lemma {:induction false} CutFields(line: string, pos: nat, pos2: nat, end: nat)
    requires Find(line, ' ', 0) == Some(pos) && Find(line, ' ', pos + 1) == Some(pos2)
    requires end == if pos + 1 + pos2 <= |line| then pos + 1 + pos2 else |line|
    ensures ' ' !in line[..pos] && ' ' !in line[pos + 1..pos2]
    ensures SizeTextStartsWithField(Fields(line[..pos], line[pos + 1..pos2], line[pos + 1..end], line[pos2 + 1..]))
  {
    assert line[..pos] == line[0..pos];
    SpaceFreeBefore(line, 0, pos);
    SpaceFreeBefore(line, pos + 1, pos2);
    SizeTextAt(line, pos, pos2, end);
  }

  lemma {:induction false} SizeTextAt(line: string, pos: nat, pos2: nat, end: nat)
    requires pos < pos2 < |line| && line[pos2] == ' '
    requires end == if pos + 1 + pos2 <= |line| then pos + 1 + pos2 else |line|
    ensures SizeTextStartsWithField(Fields(line[..pos], line[pos + 1..pos2], line[pos + 1..end], line[pos2 + 1..]))
  {
    var field, sizeText := line[pos + 1..pos2], line[pos + 1..end];
    SliceOfSlice(line, pos + 1, end, |field| + 1);
    assert line[pos + 1..pos2 + 1] == field + " ";
  }

  /** Everything `find` skips is free of the character it looks for. */
  lemma {:induction false} SpaceFreeBefore(line: string, from: nat, pos: nat)
    requires Find(line, ' ', from) == Some(pos)
    ensures ' ' !in line[from..pos]
  {
    forall k | 0 <= k < pos - from
      ensures line[from..pos][k] != ' '
    {
      assert line[from..pos][k] == line[from + k];
    }
  }

  lemma {:induction false} SliceOfSlice(s: string, i: nat, j: nat, n: nat)
    requires i <= j <= |s| && n <= j - i
    ensures s[i..j][..n] == s[i..i + n]
  {
  }

  /** A line joined from a space-free hash, a space-free field and any path splits
      back into exactly those parts. */
  lemma {:induction false} SplitOfJoin(hash: string, field: string, path: string)
    requires ' ' !in hash && ' ' !in field
    ensures Split(hash + " " + field + " " + path).Ok?
    ensures Split(hash + " " + field + " " + path).value.hash == hash
    ensures Split(hash + " " + field + " " + path).value.field == field
    ensures Split(hash + " " + field + " " + path).value.path == path
  {
    var line := hash + " " + field + " " + path;
    var pos := |hash|;
    var pos2 := |hash| + 1 + |field|;
    assert line[pos] == ' ' && line[pos2] == ' ';
    assert forall k :: 0 <= k < pos ==> line[k] == hash[k];
    assert forall k :: pos + 1 <= k < pos2 ==> line[k] == field[k - pos - 1];
    FindIs(line, ' ', 0, pos);
    FindIs(line, ' ', pos + 1, pos2);
    assert line[..pos] == hash;
    assert line[pos + 1..pos2] == field;
    assert line[pos2 + 1..] == path;
  }

  /** In `a + x` with space-free `a` and `x` starting with a space, the first space
      is the one that opens `x`. */
  lemma {:induction false} FirstSpaceAfter(a: string, x: string)
    requires ' ' !in a && |x| > 0 && x[0] == ' '
    ensures Find(a + x, ' ', 0) == Some(|a|)
  {
    assert (a + x)[|a|] == ' ';
    assert forall k :: 0 <= k < |a| ==> (a + x)[k] == a[k];
  }

  /** Two decompositions `a + x` and `b + y` of one string with space-free `a`, `b`
      and `x`, `y` starting with a space agree on the head. */
  lemma {:induction false} SameSpaceFreeHead(a: string, b: string, x: string, y: string)
    requires ' ' !in a && ' ' !in b
    requires |x| > 0 && x[0] == ' ' && |y| > 0 && y[0] == ' '
    requires a + x == b + y
    ensures a == b && x == y
  {
    FirstSpaceAfter(a, x);
    FirstSpaceAfter(b, y);
    assert a == (a + x)[..|a|] == (b + y)[..|b|] == b;
  }

  predicate IsSpace(c: char)
  {
    c == ' ' || '\t' <= c <= '\r'
  }

  function SkipSpaces(s: string): (r: string)
    ensures |r| <= |s| && r == s[|s| - |r|..]
    ensures |r| > 0 ==> !IsSpace(r[0])
  {
    if |s| > 0 && IsSpace(s[0]) then SkipSpaces(s[1..]) else s
  }

  /** The longest run of decimal digits at the start. */
  function LeadingDigits(s: string): (r: string)
    ensures AllDigits(r) && |r| <= |s| && r == s[..|r|]
    ensures |r| < |s| ==> !IsDigit(s[|r|])
  {
    if |s| > 0 && IsDigit(s[0]) then [s[0]] + LeadingDigits(s[1..]) else []
  }

  /** `std::stoull` (base 10): leading white space is skipped, one sign is accepted,
      the longest digit run is read. `None` stands for the two exceptions it
      throws, `invalid_argument` (no digits) and `out_of_range` (above 2^64 - 1).
      A minus sign negates in unsigned arithmetic, as `strtoull` does. */
  function Stoull(s: string): (r: Option<u64>)
    ensures r.Some? ==> exists k :: 0 <= k < |s| && IsDigit(s[k])
  {
    var t := SkipSpaces(s);
    var signed := |t| > 0 && (t[0] == '+' || t[0] == '-');
    var digits := LeadingDigits(if signed then t[1..] else t);
    if |digits| == 0 then None
    else if DigitsValue(digits) >= U64Modulus then None
    else if signed && t[0] == '-' then Some(Wrap64(-(DigitsValue(digits) as int)))
    else Some(DigitsValue(digits))
  }

  lemma {:induction false} LeadingDigitsOfJoin(d: string, rest: string)
    requires AllDigits(d)
    requires |rest| == 0 || !IsDigit(rest[0])
    ensures LeadingDigits(d + rest) == d
  {
    if |d| > 0 {
      LeadingDigitsOfJoin(d[1..], rest);
      assert (d + rest)[1..] == d[1..] + rest;
      assert d == [d[0]] + d[1..];
    }
  }

  /** The size field of a written record reads back as the size. */
  lemma {:induction false} StoullDecimal(n: nat, rest: string)
    requires n < U64Modulus
    requires |rest| == 0 || !IsDigit(rest[0])
    ensures Stoull(Decimal(n) + rest) == Some(n)
  {
    DecimalValue(n);
    StoullDigits(Decimal(n), rest);
  }

  /** Digits followed by anything but a digit read as their value. */
  lemma {:induction false} StoullDigits(d: string, rest: string)
    requires |d| > 0 && AllDigits(d) && DigitsValue(d) < U64Modulus
    requires |rest| == 0 || !IsDigit(rest[0])
    ensures Stoull(d + rest) == Some(DigitsValue(d))
  {
    var s := d + rest;
    assert s[0] == d[0];
    SkipNothing(s);
    LeadingDigitsOfJoin(d, rest);
  }

  lemma {:induction false} SkipNothing(s: string)
    requires |s| > 0 && IsDigit(s[0])
    ensures SkipSpaces(s) == s
  {
  }

  /** Text that starts with anything but white space, a sign or a digit is refused. */
  lemma {:induction false} StoullRejectsNonNumeric(s: string)
    requires |s| > 0 && !IsSpace(s[0]) && !IsDigit(s[0]) && s[0] != '+' && s[0] != '-'
    ensures Stoull(s) == None
  {
  }

  /** A negative size is accepted and wraps: "-1" reads as 2^64 - 1. */
  lemma {:induction false} StoullMinusOneWraps()
    ensures Stoull("-1") == Some(U64Modulus - 1)
  {
    var s := "-1";
    assert SkipSpaces(s) == s by {
      assert !IsSpace(s[0]);
    }
    assert s[1..] == "1";
    assert LeadingDigits("1") == "1" by {
      assert "1"[1..] == [];
    }
    assert DigitsValue("1") == 1 by {
      assert "1"[..0] == [];
    }
    assert Wrap64(-1) == U64Modulus - 1;
  }

  /** A record as `lsdup` reads it. */
  datatype Rec = Rec(hash: string, size: u64, path: string)

  /** The checks of `lsdup` in their order: two spaces, a non-empty path, a number. */
  function ParseRecord(line: string): (r: Result<Rec, ParseError>)
    ensures r.Ok? ==> |r.value.path| > 0 && ' ' !in r.value.hash
    ensures r.Ok? ==> (|r.value.hash| + |r.value.path| + 2 <= |line|
      && line[..|r.value.hash| + 1] == r.value.hash + " "
      && line[|line| - |r.value.path|..] == r.value.path)
  {
    match Split(line)
    case Err(e) => Err(e)
    case Ok(f) =>
      SplitFields(line);
      SplitEnds(line);
      if |f.path| == 0 then Err(EmptyPath)
      else match Stoull(f.sizeText)
        case None => Err(BadSize)
        case Some(size) => Ok(Rec(f.hash, size, f.path))
  }

  /** The checks of `lsdup` in order: the cut's errors pass through, an empty path is
      refused before the size is read, a size `stoull` refuses is refused, and an
      accepted record carries the hash, the path and the value `stoull` reads. */
  lemma {:induction false} ParseRecordOutcome(line: string)
    ensures Split(line).Err? ==> ParseRecord(line) == Err(Split(line).error)
    ensures Split(line).Ok? && Split(line).value.path == [] ==> ParseRecord(line) == Err(EmptyPath)
    ensures Split(line).Ok? && Split(line).value.path != [] && Stoull(Split(line).value.sizeText).None?
      ==> ParseRecord(line) == Err(BadSize)
    ensures ParseRecord(line).Ok? <==>
      Split(line).Ok? && Split(line).value.path != [] && Stoull(Split(line).value.sizeText).Some?
    ensures ParseRecord(line).Ok? ==>
      ParseRecord(line).value.hash == Split(line).value.hash
      && ParseRecord(line).value.path == Split(line).value.path
      && Some(ParseRecord(line).value.size) == Stoull(Split(line).value.sizeText)
  {
  }

  /** A line that ends at its second space has an empty path and is refused. */
  lemma {:induction false} TrailingSpaceEmptyPath(hash: string, field: string)
    requires ' ' !in hash && ' ' !in field
    ensures ParseRecord(hash + " " + field + " ") == Err(EmptyPath)
  {
    SplitOfJoin(hash, field, "");
    assert hash + " " + field + " " + "" == hash + " " + field + " ";
  }

  /** A size field that does not open with white space, a sign or a digit is
      refused by `stoull`, whatever the path. */
  lemma {:induction false} NonNumericSizeRefused(hash: string, field: string, path: string)
    requires ' ' !in hash && ' ' !in field && |path| > 0
    requires |field| > 0 && !IsSpace(field[0]) && !IsDigit(field[0]) && field[0] != '+' && field[0] != '-'
    ensures ParseRecord(hash + " " + field + " " + path) == Err(BadSize)
  {
    var line := hash + " " + field + " " + path;
    SplitOfJoin(hash, field, path);
    SplitFields(line);
    var f := Split(line).value;
    assert f.sizeText[0] == (field + " ")[0] == field[0] by {
      assert f.sizeText[..|field| + 1] == field + " ";
    }
    StoullRejectsNonNumeric(f.sizeText);
  }

  /** A split line opens with its hash and a space and closes with its path. */
  lemma {:induction false} SplitEnds(line: string)
    requires Split(line).Ok?
    ensures var f := Split(line).value;
      |f.hash| + |f.path| + 2 <= |line|
      && line[..|f.hash| + 1] == f.hash + " "
      && line[|line| - |f.path|..] == f.path
  {
    var f := Split(line).value;
    var head := f.hash + " ";
    assert line == head + (f.field + " " + f.path);
    assert line == (f.hash + " " + f.field + " ") + f.path;
  }

  /** Writing a record and parsing it gives back the fingerprint, the size and the
      sanitised path. */
  lemma {:induction false} ParseFormat(fingerprint: string, size: u32, path: string)
    requires ' ' !in fingerprint && |path| > 0
    ensures ParseRecord(FormatLine(fingerprint, size, path)) == Ok(Rec(fingerprint, size, Sanitize(path)))
  {
    var d := Decimal(size);
    DecimalSpaceFree(size);
    var line := FormatLine(fingerprint, size, path);
    SplitOfJoin(fingerprint, d, Sanitize(path));
    SplitFields(line);
    var f := Split(line).value;
    assert f.hash == fingerprint && f.field == d && f.path == Sanitize(path);
    StoullOfSizeText(f, size);
    assert ParseRecord(line) == Ok(Rec(f.hash, size, f.path));
  }

  /** The text handed to `stoull` for a written size: the digits, the second space, more. */
  lemma {:induction false} StoullOfSizeText(f: Fields, n: nat)
    requires n < U64Modulus
    requires f.field == Decimal(n) && SizeTextStartsWithField(f)
    ensures Stoull(f.sizeText) == Some(n)
  {
    var sizeText := f.sizeText;
    var d := Decimal(n);
    var more := sizeText[|d| + 1..];
    assert sizeText == sizeText[..|d| + 1] + more;
    assert sizeText == d + (" " + more);
    StoullDecimal(n, " " + more);
  }

  lemma {:induction false} DecimalSpaceFree(n: nat)
    ensures ' ' !in Decimal(n)
  {
    var d := Decimal(n);
    forall k | 0 <= k < |d|
      ensures d[k] != ' '
    {
      assert IsDigit(d[k]);
    }
  }

  /** The database line of a file parses back into its fingerprint, its (32-bit) size
      and its sanitised path. */
  lemma {:induction false} ParseRecordLine(path: string, content: seq<byte>, sha: seq<byte> -> Sampling.Digest)
    requires |path| > 0
    ensures ParseRecord(RecordLine(path, content, sha))
      == Ok(Rec(Sampling.Fingerprint(content, sha), Sampling.FileSize(content), Sanitize(path)))
  {
    var fp := Sampling.Fingerprint(content, sha);
    FingerprintPlain(fp);
    ParseFormat(fp, Sampling.FileSize(content), path);
  }

  /** The index key of a line: the text before its first space, or the whole line. */
  function KeyOf(line: string): (k: string)
    ensures ' ' !in k
    ensures |k| <= |line| && k == line[..|k|]
    ensures |k| < |line| ==> line[|k|] == ' '
  {
    match Find(line, ' ', 0)
    case None => line
    case Some(pos) => line[..pos]
  }

  /** The key of a well-formed line is the hash it splits into. */
  lemma {:induction false} KeyOfSplit(line: string)
    requires Split(line).Ok?
    ensures KeyOf(line) == Split(line).value.hash
  {
    var f := Split(line).value;
    var k := KeyOf(line);
    var tail := " " + f.field + " " + f.path;
    SplitFields(line);
    assert line == f.hash + tail;
    assert |k| < |line| by {
      assert line[|f.hash|] == ' ';
    }
    assert line == k + line[|k|..];
    SameSpaceFreeHead(k, f.hash, line[|k|..], tail);
  }
}

=== FILE: sampling.dfy ===
/** The fingerprint of one file (`mp3hash`): which bytes are hashed, and how the
    tier tag and the hexadecimal digest form the fingerprint text.

    The file is its byte sequence. The digest function (SHA-512 in the program)
    is a parameter `sha` mapping the sample to 64 bytes; nothing is assumed of it. */
module Sampling {
  import opened Basics
  import Hex

  const Id3v1Size: nat := 128
  const HashLen: nat := 64
  const Small: nat := 100 * 1024
  const Medium: nat := 1048576
  const Large: nat := 100 * 1048576
  const LargeSkip: nat := 50 * 1048576

  type Digest = s: seq<byte> | |s| == HashLen witness seq(64, _ => 0)

  /** The four sampling policies, smallest files first. */
  datatype Tier = Whole | Last100K | Last1M | Skip50M

  function Rank(t: Tier): nat
  {
    match t
    case Whole => 0
    case Last100K => 1
    case Last1M => 2
    case Skip50M => 3
  }

  /** The three characters that open the fingerprint of each tier. */
  function Prefix(t: Tier): (r: string)
    ensures |r| == 3 && r[2] == '-'
  {
    match t
    case Whole => "0F-"
    case Last100K => "01-"
    case Last1M => "02-"
    case Skip50M => "03-"
  }

  lemma {:induction false} PrefixInjective(t: Tier, u: Tier)
    requires Prefix(t) == Prefix(u)
    ensures t == u
  {
  }

  /** Where the sample lies: `sampleSize` bytes starting at `offset`, with `skipback`
      bytes left over at the end. All three are `unsigned` in the program. */
  datatype Plan = Plan(tier: Tier, sampleSize: u32, skipback: u32, offset: u32)

  /** `unsigned filesize = tellg()`: the length, reduced modulo 2^32. */
  function FileSize(content: seq<byte>): (n: u32)
    ensures n <= |content|
    ensures |content| < U32Modulus ==> n == |content|
  {
    Wrap32(|content|)
  }

  /** The ID3v1 test: the 128 bytes that end at `filesize` start with "TAG". */
  predicate HasTrailer(content: seq<byte>): (b: bool)
    ensures b ==> Id3v1Size <= |content|
    ensures |content| < U32Modulus ==>
      (b <==> (Id3v1Size <= |content|
               && content[|content| - 128] == 'T' as int && content[|content| - 127] == 'A' as int
               && content[|content| - 126] == 'G' as int))
  {
    var n := FileSize(content);
    n >= Id3v1Size && content[n - 128] == 'T' as int && content[n - 127] == 'A' as int
      && content[n - 126] == 'G' as int
  }

  /** The bytes excluded at the end before any tier adds to it. */
  function TrailerSkip(filesize: u32, tagged: bool): (r: u32)
    ensures r == 0 || r == Id3v1Size
    ensures r == Id3v1Size <==> filesize >= Id3v1Size && tagged
  {
    if filesize >= Id3v1Size && tagged then Id3v1Size else 0
  }

  /** The tier choice and read window of `mp3hash`, with the offset computed as two
      `unsigned` subtractions. For the whole-file tier the offset is 0 only when no
      trailer was found; with a trailer it wraps around (see `WholeTierTaggedOffsetWraps`). */
  function SelectPlan(filesize: u32, tagged: bool): (p: Plan)
    ensures var sb := TrailerSkip(filesize, tagged);
      && (p.tier == Whole <==> filesize < Small + sb)
      && (p.tier == Last100K <==> Small + sb <= filesize < Medium + sb)
      && (p.tier == Last1M <==> Medium + sb <= filesize < Large + sb)
      && (p.tier == Skip50M <==> Large + sb <= filesize)
    ensures p.tier == Whole ==> p.sampleSize == filesize
    ensures p.tier == Last100K ==> p.sampleSize == Small
    ensures p.tier in {Last1M, Skip50M} ==> p.sampleSize == Medium
    ensures p.tier == Skip50M ==> p.skipback == TrailerSkip(filesize, tagged) + LargeSkip
    ensures p.tier != Skip50M ==> p.skipback == TrailerSkip(filesize, tagged)
    ensures p.tier != Whole ==> p.offset + p.sampleSize + p.skipback == filesize
    ensures p.tier == Whole ==> (p.offset == 0 <==> TrailerSkip(filesize, tagged) == 0)
  {
    var skipback := TrailerSkip(filesize, tagged);
    var tier := if filesize < Small + skipback then Whole
      else if filesize < Medium + skipback then Last100K
      else if filesize < Large + skipback then Last1M
      else Skip50M;
    var sampleSize: u32 := match tier
      case Whole => filesize
      case Last100K => Small
      case _ => Medium;
    var skipback': u32 := if tier == Skip50M then skipback + LargeSkip else skipback;
    Plan(tier, sampleSize, skipback', Wrap32(Wrap32(filesize - sampleSize) - skipback'))
  }

  /** A larger file never falls into a smaller tier. */
  lemma {:induction false} TierMonotone(n: u32, m: u32, tagged: bool)
    requires n <= m
    ensures Rank(SelectPlan(n, tagged).tier) <= Rank(SelectPlan(m, tagged).tier)
  {
  }

  /** The defect of the whole-file tier: with a trailer present the read offset
      `filesize - filesize - 128` wraps to 2^32 - 128, far past the end of the file. */
  lemma {:induction false} WholeTierTaggedOffsetWraps(filesize: u32)
    requires Id3v1Size <= filesize < Small + Id3v1Size
    ensures SelectPlan(filesize, true).tier == Whole
    ensures SelectPlan(filesize, true).offset == U32Modulus - Id3v1Size
    ensures SelectPlan(filesize, true).offset > filesize
  {
  }

  /** The read of `sampleSize` bytes at `offset`; `None` when the file is too short,
      in which case the program hashes a buffer that the read did not fill. */
  function ReadSample(content: seq<byte>, offset: nat, size: nat): (r: Option<seq<byte>>)
    ensures r.Some? <==> offset + size <= |content|
    ensures r.Some? ==> (|r.value| == size && forall k :: 0 <= k < size ==> r.value[k] == content[offset + k])
  {
    if offset + size <= |content| then Some(content[offset..offset + size]) else None
  }

  /** The fingerprint exactly as `mp3hash` computes it; `None` where the program
      hashes an unfilled buffer and its output is therefore not determined. */
  function FingerprintAsWritten(content: seq<byte>, sha: seq<byte> -> Digest): (r: Option<string>)
    ensures r.Some? ==> |r.value| == 3 + 2 * HashLen
  {
    var n := FileSize(content);
    var p := SelectPlan(n, HasTrailer(content));
    match ReadSample(content, p.offset, p.sampleSize)
    case Some(sample) => Some(Prefix(p.tier) + Hex.Encode(sha(sample)))
    case None => None
  }

  /** Which files the program reads in full: below 4 GiB, every file except one in
      the whole-file tier that ends in an ID3v1 block. */
  lemma {:induction false} AsWrittenDefined(content: seq<byte>, sha: seq<byte> -> Digest)
    requires |content| < U32Modulus
    ensures FingerprintAsWritten(content, sha).Some? <==>
      !(SelectPlan(FileSize(content), HasTrailer(content)).tier == Whole && HasTrailer(content))
  {
    if SelectPlan(FileSize(content), HasTrailer(content)).tier == Whole && HasTrailer(content) {
      WholeTierTaggedOffsetWraps(FileSize(content));
    }
  }

  /** A 72-byte payload followed by a 128-byte ID3v1 block: the program reads
      nothing, although the payload alone is fingerprinted from its own bytes. */
  lemma {:induction false} TaggedSmallFileUnreadable(sha: seq<byte> -> Digest)
    ensures var payload: seq<byte> := seq(72, _ => 0);
      var trailer: seq<byte> := ['T' as int, 'A' as int, 'G' as int] + seq(125, _ => 0);
      && FingerprintAsWritten(payload + trailer, sha) == None
      && FingerprintAsWritten(payload, sha) == Some("0F-" + Hex.Encode(sha(payload)))
  {
    var payload: seq<byte> := seq(72, _ => 0);
    var trailer: seq<byte> := ['T' as int, 'A' as int, 'G' as int] + seq(125, _ => 0);
    var content := payload + trailer;
    assert content[72] == 'T' as int && content[73] == 'A' as int && content[74] == 'G' as int;
    assert HasTrailer(content);
    WholeTierTaggedOffsetWraps(200);
    assert !HasTrailer(payload);
    assert payload[0..72] == payload;
  }

  /** The intended window: the whole-file tier hashes everything before the trailer. */
  function IntendedPlan(filesize: u32, tagged: bool): (p: Plan)
    ensures p.offset + p.sampleSize + p.skipback == filesize
    ensures p.tier == SelectPlan(filesize, tagged).tier
    ensures p.tier != Whole ==> p == SelectPlan(filesize, tagged)
    ensures p.tier == Whole ==> p.offset == 0 && p.skipback == TrailerSkip(filesize, tagged)
  {
    var p := SelectPlan(filesize, tagged);
    if p.tier == Whole then Plan(Whole, filesize - p.skipback, p.skipback, 0) else p
  }

  /** The plan the corrected fingerprint follows for a file. */
  function PlanOf(content: seq<byte>): (p: Plan)
    ensures p.offset + p.sampleSize <= |content|
  {
    IntendedPlan(FileSize(content), HasTrailer(content))
  }

  /** The bytes the corrected fingerprint hashes. */
  function Window(content: seq<byte>): seq<byte>
  {
    var p := PlanOf(content);
    content[p.offset..p.offset + p.sampleSize]
  }

  /** The fingerprint with the whole-file window corrected; defined for every file. */
  function Fingerprint(content: seq<byte>, sha: seq<byte> -> Digest): (r: string)
    ensures IsFingerprint(r)
  {
    FingerprintShape(PlanOf(content).tier, sha(Window(content)));
    Prefix(PlanOf(content).tier) + Hex.Encode(sha(Window(content)))
  }

  /** The text shape of every fingerprint: a tier tag and 128 lower-case hex digits. */
  predicate IsFingerprint(s: string)
  {
    && |s| == 3 + 2 * HashLen
    && s[..3] in {"0F-", "01-", "02-", "03-"}
    && forall k :: 3 <= k < |s| ==> Hex.IsDigit(s[k])
  }

  lemma {:induction false} FingerprintShape(t: Tier, d: Digest)
    ensures IsFingerprint(Prefix(t) + Hex.Encode(d))
  {
    var s := Prefix(t) + Hex.Encode(d);
    Hex.EncodeAlphabet(d);
    assert s[..3] == Prefix(t);
    forall k | 3 <= k < |s|
      ensures Hex.IsDigit(s[k])
    {
      assert s[k] == Hex.Encode(d)[k - 3];
    }
  }

  /** Whenever the program reads a full sample of a file below 4 GiB, the corrected
      fingerprint agrees with it. */
  lemma {:induction false} IntendedAgreesWhenReadable(content: seq<byte>, sha: seq<byte> -> Digest)
    requires |content| < U32Modulus
    requires FingerprintAsWritten(content, sha).Some?
    ensures FingerprintAsWritten(content, sha) == Some(Fingerprint(content, sha))
  {
    var n := FileSize(content);
    var tagged := HasTrailer(content);
    if SelectPlan(n, tagged).tier == Whole {
      assert TrailerSkip(n, tagged) == 0;
    }
  }

  /** A file below 100 KiB without trailer is fingerprinted by the digest of all its bytes. */
  lemma {:induction false} SmallFileWholeDigest(content: seq<byte>, sha: seq<byte> -> Digest)
    requires |content| < Small && !HasTrailer(content)
    ensures Fingerprint(content, sha) == "0F-" + Hex.Encode(sha(content))
  {
    assert Window(content) == content[0..|content|] == content;
  }

  /** A file of 100 KiB up to 1 MiB without trailer is fingerprinted by its last 100 KiB. */
  lemma {:induction false} MediumFileLastBlock(content: seq<byte>, sha: seq<byte> -> Digest)
    requires Small <= |content| < Medium && !HasTrailer(content)
    ensures Fingerprint(content, sha) == "01-" + Hex.Encode(sha(content[|content| - Small..]))
  {
    var n := |content|;
    var p := PlanOf(content);
    assert p.tier == Last100K && p.offset == n - Small && p.sampleSize == Small;
    assert Window(content) == content[n - Small..];
  }

  /** A trailer of 128 bytes moves the tier thresholds by exactly its own size and
      leaves the read window where it was. */
  lemma {:induction false} TrailerShiftsPlan(n: nat)
    requires n + Id3v1Size < U32Modulus
    ensures IntendedPlan(n + Id3v1Size, true).tier == IntendedPlan(n, false).tier
    ensures IntendedPlan(n + Id3v1Size, true).offset == IntendedPlan(n, false).offset
    ensures IntendedPlan(n + Id3v1Size, true).sampleSize == IntendedPlan(n, false).sampleSize
  {
  }

  /** Appending an ID3v1 block to a payload that has none leaves the corrected
      fingerprint unchanged, in every tier. */
  lemma {:induction false} TrailerInvariance(payload: seq<byte>, trailer: seq<byte>, sha: seq<byte> -> Digest)
    requires |trailer| == Id3v1Size
    requires trailer[0] == 'T' as int && trailer[1] == 'A' as int && trailer[2] == 'G' as int
    requires |payload| + Id3v1Size < U32Modulus
    requires !HasTrailer(payload)
    ensures Fingerprint(payload + trailer, sha) == Fingerprint(payload, sha)
  {
    var content := payload + trailer;
    var n := |payload|;
    assert FileSize(content) == n + Id3v1Size;
    assert FileSize(payload) == n;
    assert content[n] == trailer[0] && content[n + 1] == trailer[1] && content[n + 2] == trailer[2];
    assert HasTrailer(content);
    TrailerShiftsPlan(n);
    var p := PlanOf(content);
    var q := PlanOf(payload);
    assert p.tier == q.tier && p.offset == q.offset && p.sampleSize == q.sampleSize;
    assert Window(content) == Window(payload) by {
      assert content[p.offset..p.offset + p.sampleSize] == payload[q.offset..q.offset + q.sampleSize];
    }
  }

  /** Files sampled under different tiers never share a fingerprint. */
  lemma {:induction false} DistinctTiersDistinctFingerprints(a: seq<byte>, b: seq<byte>, sha: seq<byte> -> Digest)
    requires PlanOf(a).tier != PlanOf(b).tier
    ensures Fingerprint(a, sha) != Fingerprint(b, sha)
  {
    var ta := PlanOf(a).tier;
    var tb := PlanOf(b).tier;
    assert Fingerprint(a, sha)[..3] == Prefix(ta);
    assert Fingerprint(b, sha)[..3] == Prefix(tb);
    if Prefix(ta) == Prefix(tb) {
      PrefixInjective(ta, tb);
    }
  }
}

=== FILE: script.dfy ===
/** The copy script `comp` writes for the files only one database has: a fixed
    header, `mkdir -p` lines for the directories (a repeat of the previous line's
    directory is skipped) and one `cp` line per file. The input is the sorted list
    of missing paths; the script is a sequence of lines. */
module Script {
  import opened Basics

  const Header: seq<string> := [
    "#!/bin/bash",
    "dest=\"$1\"",
    "if [ -z \"$dest\" ]; then",
    "\techo \"usage: $0 /mnt/destination/path\"",
    "\texit 1",
    "fi"
  ]

  /** The directory sentinel `last_dir` starts with. */
  const NoDir: string := "#"

  /** `missing_file[i]` for the common-prefix loop; position `size()` reads the
      terminating NUL character. */
  function CharAt(s: string, i: nat): char
  {
    if i < |s| then s[i] else '\0'
  }

  /** The inner loop: the first position below `ppos` where `prefix` and `file`
      differ, or `ppos` when they agree that far. */
  function FirstMismatch(prefix: string, file: string, ppos: nat, i: nat): (r: nat)
    requires ppos <= |prefix| && i <= ppos
    ensures i <= r <= ppos
    ensures forall j :: i <= j < r ==> prefix[j] == CharAt(file, j)
    ensures r < ppos ==> prefix[r] != CharAt(file, r)
    decreases ppos - i
  {
    if i == ppos then ppos
    else if prefix[i] != CharAt(file, i) then i
    else FirstMismatch(prefix, file, ppos, i + 1)
  }

  /** The outer loop over the sorted paths, skipping empty ones; ShrinkPrefixCommon
      states what it computes. */
  function ShrinkPrefix(prefix: string, ppos: nat, files: seq<string>): (r: nat)
    requires ppos <= |prefix|
    ensures r <= ppos
  {
    if |files| == 0 then ppos
    else if |files[0]| == 0 then ShrinkPrefix(prefix, ppos, files[1..])
    else ShrinkPrefix(prefix, FirstMismatch(prefix, files[0], ppos, 0), files[1..])
  }

  /** The length the outer loop leaves is a prefix common to `prefix` and every
      non-empty path (a path read as ending in '\0'). */
  lemma {:induction false} ShrinkPrefixCommon(prefix: string, ppos: nat, files: seq<string>)
    requires ppos <= |prefix|
    ensures var r := ShrinkPrefix(prefix, ppos, files);
      forall k, j :: 0 <= k < |files| && |files[k]| > 0 && 0 <= j < r ==> prefix[j] == CharAt(files[k], j)
    decreases |files|
  {
    if |files| > 0 {
      var next := if |files[0]| == 0 then ppos else FirstMismatch(prefix, files[0], ppos, 0);
      ShrinkPrefixCommon(prefix, next, files[1..]);
      var r := ShrinkPrefix(prefix, ppos, files);
      assert r == ShrinkPrefix(prefix, next, files[1..]);
      forall k, j | 0 <= k < |files| && |files[k]| > 0 && 0 <= j < r
        ensures prefix[j] == CharAt(files[k], j)
      {
        if k > 0 {
          assert files[k] == files[1..][k - 1];
        }
      }
    }
  }

  /** The length of the prefix stripped from every path, as the program computes it:
      `common_prefix` is never assigned a path, so the length starts and stays at 0. */
  function CommonPrefixPos(files: seq<string>): (ppos: nat)
    ensures ppos == 0
  {
    var commonPrefix := "";
    if |files| == 0 then 0 else ShrinkPrefix(commonPrefix, |commonPrefix|, files)
  }

  /** `missing_file.substr(ppos, pos_last_slash > ppos ? pos_last_slash - ppos : npos)`:
      the text from `ppos` up to the last `/`, or up to the end when there is no `/`
      after position `ppos`. */
  function DirPart(path: string, ppos: nat): (dir: string)
    requires ppos <= |path|
    ensures |dir| <= |path| - ppos && dir == path[ppos..ppos + |dir|]
    ensures |dir| < |path| - ppos ==>
      (path[ppos + |dir|] == '/' && forall j :: ppos + |dir| < j < |path| ==> path[j] != '/')
    ensures |dir| == |path| - ppos ==> forall j :: ppos < j < |path| ==> path[j] != '/'
    ensures |dir| < |path| - ppos ==> |dir| > 0
  {
    match RFind(path, '/')
    case Some(k) => if k > ppos then path[ppos..k] else path[ppos..]
    case None => path[ppos..]
  }

  function MkdirCmd(dir: string): string
  {
    "mkdir -p \"$dest/" + dir + "\""
  }

  predicate PathsReach(files: seq<string>, ppos: nat)
  {
    forall i :: 0 <= i < |files| ==> ppos <= |files[i]|
  }

  /** The directory of every path, in order. */
  function Dirs(files: seq<string>, ppos: nat): (dirs: seq<string>)
    requires PathsReach(files, ppos)
    ensures |dirs| == |files|
    ensures forall i :: 0 <= i < |files| ==> dirs[i] == DirPart(files[i], ppos)
  {
    if |files| == 0 then [] else [DirPart(files[0], ppos)] + Dirs(files[1..], ppos)
  }

  /** The `mkdir` loop, carrying the last directory written. */
  function MkdirLines(files: seq<string>, ppos: nat, lastDir: string): seq<string>
    requires PathsReach(files, ppos)
  {
    if |files| == 0 then []
    else
      var dir := DirPart(files[0], ppos);
      if dir != lastDir then [MkdirCmd(dir)] + MkdirLines(files[1..], ppos, dir)
      else MkdirLines(files[1..], ppos, lastDir)
  }

  /** Whether the i-th path opens a new directory: its directory differs from the
      previous path's, or, for the first path, from the sentinel. */
  predicate NewDirAt(dirs: seq<string>, i: nat)
    requires i < |dirs|
  {
    dirs[i] != (if i == 0 then NoDir else dirs[i - 1])
  }

  /** The `mkdir` lines defined position by position, without carried state. */
  function MkdirAt(dirs: seq<string>, i: nat): seq<string>
    requires i <= |dirs|
    decreases |dirs| - i
  {
    if i == |dirs| then []
    else (if NewDirAt(dirs, i) then [MkdirCmd(dirs[i])] else []) + MkdirAt(dirs, i + 1)
  }

  /** The carried-state loop writes exactly one `mkdir` line for each path whose
      directory differs from the previous path's (the first path: from "#"). */
  lemma {:induction false} MkdirLinesByPosition(files: seq<string>, ppos: nat)
    requires PathsReach(files, ppos)
    ensures MkdirLines(files, ppos, NoDir) == MkdirAt(Dirs(files, ppos), 0)
  {
    var dirs := Dirs(files, ppos);
    MkdirLinesOfDirs(files, ppos, NoDir);
    MkdirOfDirsAt(dirs, 0);
    assert dirs[0..] == dirs;
  }

  /** The `mkdir` loop run over the directories rather than the paths. */
  function MkdirOfDirs(dirs: seq<string>, lastDir: string): seq<string>
  {
    if |dirs| == 0 then []
    else if dirs[0] != lastDir then [MkdirCmd(dirs[0])] + MkdirOfDirs(dirs[1..], dirs[0])
    else MkdirOfDirs(dirs[1..], lastDir)
  }

  /** The loop over the paths only looks at their directories. */
  lemma {:induction false} MkdirLinesOfDirs(files: seq<string>, ppos: nat, lastDir: string)
    requires PathsReach(files, ppos)
    ensures MkdirLines(files, ppos, lastDir) == MkdirOfDirs(Dirs(files, ppos), lastDir)
  {
    if |files| > 0 {
      var dir := DirPart(files[0], ppos);
      var dirs := Dirs(files, ppos);
      MkdirLinesOfDirs(files[1..], ppos, if dir != lastDir then dir else lastDir);
      assert dirs == [dir] + Dirs(files[1..], ppos);
      assert dirs[1..] == Dirs(files[1..], ppos);
    }
  }

  /** From position `i` on, the loop carrying the previous directory writes the
      position-wise lines. */
  lemma {:induction false} MkdirOfDirsAt(dirs: seq<string>, i: nat)
    requires i <= |dirs|
    ensures MkdirOfDirs(dirs[i..], if i == 0 then NoDir else dirs[i - 1]) == MkdirAt(dirs, i)
    decreases |dirs| - i
  {
    if i < |dirs| {
      MkdirOfDirsAt(dirs, i + 1);
      assert dirs[i..][1..] == dirs[i + 1..] && dirs[i..][0] == dirs[i];
    } else {
      assert dirs[i..] == [];
    }
  }

  /** The loop writes at most one `mkdir` line per path, whatever directory it carries. */
  lemma {:induction false} MkdirLinesBound(files: seq<string>, ppos: nat, lastDir: string)
    requires PathsReach(files, ppos)
    ensures |MkdirLines(files, ppos, lastDir)| <= |files|
  {
    if |files| > 0 {
      var dir := DirPart(files[0], ppos);
      MkdirLinesBound(files[1..], ppos, if dir != lastDir then dir else lastDir);
    }
  }

  /** Every directory other than the sentinel gets a `mkdir` line somewhere. */
  lemma {:induction false} MkdirCoversDirs(dirs: seq<string>, i: nat)
    requires i < |dirs| && dirs[i] != NoDir
    ensures MkdirCmd(dirs[i]) in MkdirAt(dirs, 0)
    decreases i
  {
    if NewDirAt(dirs, i) {
      MkdirAtContains(dirs, 0, i);
    } else {
      MkdirCoversDirs(dirs, i - 1);
    }
  }

  lemma {:induction false} MkdirAtContains(dirs: seq<string>, from: nat, i: nat)
    requires from <= i < |dirs| && NewDirAt(dirs, i)
    ensures MkdirCmd(dirs[i]) in MkdirAt(dirs, from)
    decreases i - from
  {
    if from < i {
      MkdirAtContains(dirs, from + 1, i);
    }
  }

  /** At most one `mkdir` line per path. */
  lemma {:induction false} MkdirAtBound(dirs: seq<string>, i: nat)
    requires i <= |dirs|
    ensures |MkdirAt(dirs, i)| <= |dirs| - i
    decreases |dirs| - i
  {
    if i < |dirs| {
      MkdirAtBound(dirs, i + 1);
    }
  }

  lemma {:induction false} MkdirCmdInjective(a: string, b: string)
    requires MkdirCmd(a) == MkdirCmd(b)
    ensures a == b
  {
    var pre := "mkdir -p \"$dest/";
    assert |a| == |b|;
    assert a == MkdirCmd(a)[|pre|..|pre| + |a|];
    assert b == MkdirCmd(b)[|pre|..|pre| + |b|];
  }

  /** No two consecutive `mkdir` lines are the same, and the first one differs from
      the directory carried in. */
  lemma {:induction false} MkdirAdjacentDistinct(files: seq<string>, ppos: nat, lastDir: string)
    requires PathsReach(files, ppos)
    ensures var r := MkdirLines(files, ppos, lastDir);
      (|r| > 0 ==> r[0] != MkdirCmd(lastDir))
      && forall k :: 0 <= k < |r| - 1 ==> r[k] != r[k + 1]
  {
    if |files| > 0 {
      var dir := DirPart(files[0], ppos);
      MkdirAdjacentDistinct(files[1..], ppos, if dir != lastDir then dir else lastDir);
      if dir != lastDir {
        if MkdirCmd(dir) == MkdirCmd(lastDir) {
          MkdirCmdInjective(dir, lastDir);
        }
      }
    }
  }

  /** A directory spelled like the sentinel is never created: a single path "#/a"
      yields no `mkdir` line. */
  lemma {:induction false} SentinelDirNotCreated()
    ensures MkdirLines(["#/a"], 0, NoDir) == []
  {
    assert RFind("#/a", '/') == Some(1);
    assert DirPart("#/a", 0) == "#";
  }

  /** `string_replace(path, "`", "\\`")`: every backtick gets a backslash in front. */
  function EscapeBackticks(s: string): (r: string)
    ensures |r| >= |s|
    ensures |s| > 0 ==> |r| > 0 && r[0] != '`'
  {
    if |s| == 0 then []
    else (if s[0] == '`' then "\\`" else [s[0]]) + EscapeBackticks(s[1..])
  }

  /** Reads an escaped text back: a backslash before a backtick is dropped. */
  function UnescapeBackticks(r: string): string
  {
    if |r| == 0 then []
    else if |r| >= 2 && r[0] == '\\' && r[1] == '`' then "`" + UnescapeBackticks(r[2..])
    else [r[0]] + UnescapeBackticks(r[1..])
  }

  /** The escaping loses nothing: distinct paths stay distinct in the script. */
  lemma {:induction false} UnescapeEscape(s: string)
    ensures UnescapeBackticks(EscapeBackticks(s)) == s
  {
    if |s| > 0 {
      UnescapeEscape(s[1..]);
      var rest := EscapeBackticks(s[1..]);
      if s[0] == '`' {
        assert EscapeBackticks(s) == "\\`" + rest;
        assert ("\\`" + rest)[2..] == rest;
      } else {
        assert EscapeBackticks(s) == [s[0]] + rest;
        assert ([s[0]] + rest)[1..] == rest;
        assert s[0] != '\\' || |rest| == 0 || rest[0] != '`';
      }
      assert s == [s[0]] + s[1..];
    }
  }

  /** Every backtick of the escaped text is preceded by a backslash. */
  lemma {:induction false} EscapedBackticksGuarded(s: string, k: nat)
    requires k < |EscapeBackticks(s)| && EscapeBackticks(s)[k] == '`'
    ensures k > 0 && EscapeBackticks(s)[k - 1] == '\\'
  {
    var head := if s[0] == '`' then "\\`" else [s[0]];
    var rest := EscapeBackticks(s[1..]);
    assert EscapeBackticks(s) == head + rest;
    if k >= |head| {
      EscapedBackticksGuarded(s[1..], k - |head|);
    }
  }

  /** The `cp` line: the source is the escaped path, the destination is `$dest/`
      followed by the path from `ppos` on, not escaped. */
  function CpCmd(file: string, ppos: nat): (cmd: string)
    requires ppos <= |file|
    ensures var src := EscapeBackticks(file);
      |cmd| == |src| + |file| - ppos + 14
      && cmd[..4] == "cp \"" && cmd[4..4 + |src|] == src
      && cmd[4 + |src|..] == "\" \"$dest/" + file[ppos..] + "\""
  {
    "cp \"" + EscapeBackticks(file) + "\" \"$dest/" + file[ppos..] + "\""
  }

  /** One `cp` line per path, in the order of the (sorted) list. */
  function CpLines(files: seq<string>, ppos: nat): (r: seq<string>)
    requires PathsReach(files, ppos)
    ensures |r| == |files|
    ensures forall i :: 0 <= i < |files| ==> r[i] == CpCmd(files[i], ppos)
  {
    if |files| == 0 then [] else [CpCmd(files[0], ppos)] + CpLines(files[1..], ppos)
  }

  /** The whole script for the sorted list of missing paths: the header, then one
      `mkdir` line wherever the directory changes, then one `cp` line per path. */
  function CopyScript(files: seq<string>): (r: seq<string>)
    ensures |r| >= |Header| + |files|
    ensures r[..|Header|] == Header
    ensures r[|r| - |files|..] == CpLines(files, 0)
    ensures r == Header + MkdirAt(Dirs(files, 0), 0) + CpLines(files, 0)
  {
    var ppos := CommonPrefixPos(files);
    var mk := MkdirLines(files, ppos, NoDir);
    MkdirLinesByPosition(files, ppos);
    MkdirAtBound(Dirs(files, ppos), 0);
    var r := Header + mk + CpLines(files, ppos);
    assert r[..|Header|] == Header;
    assert r[|r| - |files|..] == CpLines(files, 0);
    r
  }
}
